=== FILE: README.md ===
# openteam composer and channels — a Dafny model

This project models the core of the openteam chat application in Dafny:

- the message composer of the web client (`apps/web`): the send guard, the optimistic message, attachment drop, upload, removal and cleanup;
- its voice recorder, a state machine over the browser's MediaRecorder callbacks;
- the composer of the second client (`app/`), which also waits for uploads, sends `{name, storageId}` records, removes by position and targets thread or channel lists;
- the textarea's Markdown shortcuts (bold, italic and strike toggles) and its key dispatch;
- the "edit my last message" link shared by both composers;
- the file pill's MIME-type classifier, which picks an icon and a label;
- the new-channel form;
- the backend channel operations: `list`, `markAsRead`, `create`, `update`, `toggleMute` and `updateOrder`.

Every operation is a pure function over immutable data. The network, the clock, `crypto.randomUUID()`, the permission checks and id normalisation appear as parameters: their outcomes are inputs, and the model states what the code does with each outcome. A Convex mutation that throws is rolled back, so an error result carries no store.

Modules:

| module | file | content |
|---|---|---|
| `Common` | common.dfy | `Option`, `Result` |
| `Text` | text.dfy | ASCII `trim`, `toLowerCase`, `toUpperCase`, `startsWith`, `includes`, `split("/")[1]` |
| `Previews` | previews.dfy | the attachment strip shared by both composers |
| `MarkdownShortcuts` | markdown.dfy | `wrapText` and `onKeyDown` of the textarea |
| `EditMode` | edit_mode.dfy | channel switch and ArrowUp edit |
| `WebComposer` | web_composer.dfy | the web composer |
| `AudioRecorder` | audio_recorder.dfy | the voice recorder |
| `AppComposer` | app_composer.dfy | the second client's composer |
| `FileTypes` | file_types.dfy | `useFileTypes` |
| `Channels` | channels.dfy | the backend channel operations |
| `NewChannel` | new_channel.dfy | the new-channel form |

## Model

| member | source | states |
|---|---|---|
| Text.Trim | apps/web/app/components/message-input.tsx:80 | the trimmed draft is a slice of the input with only whitespace before and after it, and neither starts nor ends with whitespace |
| Text.TrimEmptyIffBlank | apps/web/app/components/message-input.tsx:264 | `!text.trim()` holds exactly when every character is whitespace |
| Text.TrimIdempotent | apps/web/app/components/message-input.tsx:84-96 | trimming an already trimmed draft changes nothing |
| Text.ToLower | apps/web/app/components/new-channel.tsx:57 | lower-casing keeps the length and maps each character on its own |
| Text.Normalize | packages/backend/convex/channels.ts:111 | the stored name is the lower-cased input with its surrounding whitespace removed; it is empty exactly when the input is blank |
| Text.TrimLowerCommute | packages/backend/convex/channels.ts:116 | lower-casing then trimming equals trimming then lower-casing |
| Text.NormalizeIdempotent | packages/backend/convex/channels.ts:116 | normalising an already stored name leaves it unchanged |
| Text.IndexOf | apps/web/app/components/file-pill.tsx:150 | finds the first occurrence of a character, or reports that there is none |
| Text.SecondSegment | apps/web/app/components/file-pill.tsx:150 | `split("/")[1]` is undefined exactly when there is no slash, and never contains a slash |
| Text.BeforeSlash | apps/web/app/components/file-pill.tsx:216 | a prefix of the input that stops at the first slash and contains none |
| Text.SecondSegmentAfter | apps/web/app/components/file-pill.tsx:216 | after a prefix such as `text/`, the second segment is the rest up to the next slash |
| Text.ContainsAt | apps/web/app/components/message-input.tsx:343 | `includes` finds an occurrence at any offset |
| Text.MissingCharNotContained | apps/web/app/components/message-input.tsx:343 | a string without one of the pattern's characters does not include the pattern |
| Previews.MarkStored | apps/web/app/components/message-input.tsx:143-147 | exactly the entries with that id get the storage id; all others are kept; the length is kept |
| Previews.MarkStoredIdempotent | apps/web/app/components/message-input.tsx:143-147 | recording the same storage id twice equals recording it once |
| Previews.MarkStoredAbsent | apps/web/app/components/message-input.tsx:143-147 | a completion for an id that is no longer listed changes nothing |
| Previews.Without | apps/web/app/components/message-input.tsx:156-161 | the filtered list holds exactly the entries with another id, and none with the removed id |
| Previews.WithoutAppend | apps/web/app/components/message-input.tsx:156-161 | filtering distributes over concatenation, so kept entries keep their order |
| Previews.WithoutAbsent | apps/web/app/components/message-input.tsx:156-161 | removing an id that is not present returns the list unchanged |
| Previews.MarkStoredAfterRemove | apps/web/app/components/message-input.tsx:156-161 | an upload that completes after its preview was removed is a no-op |
| Previews.FindIndex | apps/web/app/components/message-input.tsx:157 | the position of the first entry with the id, or none exactly when the id is absent |
| Previews.Find | apps/web/app/components/message-input.tsx:157 | the entry at the first position holding the id; present exactly when the id is listed |
| Previews.Fresh | apps/web/app/components/message-input.tsx:104-121 | one unstored preview per dropped file, in drop order, with that file's id and URL |
| Previews.Urls | apps/web/app/components/message-input.tsx:182-190 | the URL of every preview, in order |
| MarkdownShortcuts.Wrap | apps/web/app/components/expandable-textarea.tsx:90-94 | the wrapper is added on both sides; the new selection covers the same text |
| MarkdownShortcuts.Unwrap | apps/web/app/components/expandable-textarea.tsx:86-89 | both wrappers are removed and the selection moves back by the wrapper's length; with an empty wrapper, `slice(0, -0)` drops the text before the selection |
| MarkdownShortcuts.Toggle | apps/web/app/components/expandable-textarea.tsx:72-109 | removes the wrapper when it surrounds the selection, adds it otherwise; the selection keeps its length and covers the same text |
| MarkdownShortcuts.WrapThenUnwrap | apps/web/app/components/expandable-textarea.tsx:72-109 | pressing the same shortcut twice on an unwrapped selection restores the value and the selection |
| MarkdownShortcuts.UnwrapThenWrap | apps/web/app/components/expandable-textarea.tsx:72-109 | pressing it twice on a wrapped selection restores them too, unless a second wrapper surrounds the first |
| MarkdownShortcuts.WrapParts | apps/web/app/components/expandable-textarea.tsx:91-94 | adding the wrapper to `before + selected + after` inserts it on both sides of the selection and moves the selection right by its length |
| MarkdownShortcuts.UnwrapParts | apps/web/app/components/expandable-textarea.tsx:80-89 | a selection surrounded by a non-empty wrapper counts as wrapped, and removing it gives back `before + selected + after` with the selection moved left |
| MarkdownShortcuts.Marker | apps/web/app/components/expandable-textarea.tsx:111-124 | every shortcut's wrapper is non-empty |
| MarkdownShortcuts.OnKeyDown | apps/web/app/components/expandable-textarea.tsx:111-144 | each shortcut fires exactly under its key and modifier condition: Cmd/Ctrl+B without Shift, I, U, Escape with a handler, Enter without Shift or composition on a non-touch device, ArrowUp in a blank field |
| MarkdownShortcuts.OneActionPerKey | apps/web/app/components/expandable-textarea.tsx:111-144 | a keystroke triggers at most one action, and the default is prevented exactly when one fires |
| EditMode.OnChannel | apps/web/app/components/message-input.tsx:174-180 | a new channel leaves edit mode and is remembered; the same channel again changes nothing |
| EditMode.OnChannelIdempotent | app/components/message-input.tsx:189-195 | two switches to the same channel act like one |
| EditMode.OnArrowUp | apps/web/app/components/message-input.tsx:250-254 | enters edit mode for the user's last message exactly when there is one and the draft is empty |
| EditMode.ArrowUpEntersEditIff | app/components/message-input.tsx:235-237 | through the textarea, edit mode starts exactly for ArrowUp on an empty draft; a whitespace-only draft passes the textarea's check but not the composer's |
| WebComposer.SendableIff | apps/web/app/components/message-input.tsx:80 | a draft is sent exactly when its text is not blank or it has an attachment |
| WebComposer.OptimisticFiles | apps/web/app/components/message-input.tsx:57-69 | one optimistic file per preview, in order, each carrying its preview's id, name, type and URL, its own fresh id and time, and no URL or storage id yet |
| WebComposer.OptimisticItem | apps/web/app/components/message-input.tsx:35-72 | present exactly when the user is loaded; a "created" message with no reactions, the fresh id and time, the sent content, the author, and exactly the optimistic files of the previews |
| WebComposer.Submit | apps/web/app/components/message-input.tsx:78-97 | ignored exactly when nothing can be sent; otherwise sends the trimmed text under the current temporary id, clears the draft, renews the id only after success, and reports a failure |
| WebComposer.SubmitIgnoresUploadState | apps/web/app/components/message-input.tsx:80 | a draft whose only attachment is still uploading is sent anyway |
| WebComposer.OnChannelChange | apps/web/app/components/message-input.tsx:174-180 | a channel switch keeps the draft, previews and temporary id, records the new channel and its edit-mode session update, and leaves edit mode when the channel is new |
| WebComposer.ServerId | apps/web/app/components/message-input.tsx:120 | the id of the first created record naming the temporary id, or none exactly when no record names it |
| WebComposer.Remap | apps/web/app/components/message-input.tsx:110-121 | every preview takes its server id; the drop fails exactly when some preview has no record |
| WebComposer.Register | apps/web/app/components/message-input.tsx:104-121 | each dropped file becomes a preview under the server id recorded for its temporary id; fails exactly when some temporary id has no record |
| WebComposer.ApplyUploads | apps/web/app/components/message-input.tsx:143-147 | each preview gets the storage id of the last fulfilled upload for its id; rejected uploads change nothing |
| WebComposer.StorageUpdates | apps/web/app/components/message-input.tsx:143-147 | one `updateFile` call per fulfilled upload, for that preview and storage id; none exactly when every upload was rejected |
| WebComposer.StorageUpdatesCount | apps/web/app/components/message-input.tsx:143-147 | as many calls as results that were not rejected |
| WebComposer.StorageUpdatesAppend | apps/web/app/components/message-input.tsx:143-147 | the calls for two stretches of results are the first stretch's followed by the second's |
| WebComposer.StorageUpdatesOne | apps/web/app/components/message-input.tsx:143-147 | one result makes one call exactly when its upload was fulfilled |
| WebComposer.UpdatesCompleted | apps/web/app/components/message-input.tsx:143-147 | the walk completes every result before the first fulfilled upload whose `updateFile` fails, and stops there |
| WebComposer.CallsMade | apps/web/app/components/message-input.tsx:143-147 | the calls made are those for the results up to and including the first failing `updateFile`, or all of them |
| WebComposer.Drop | apps/web/app/components/message-input.tsx:104-147 | appends the dropped files under their server ids; fails exactly when a server id is missing; warns exactly when an upload was rejected; aborts exactly when some fulfilled upload's `updateFile` fails; makes the calls of `CallsMade` |
| WebComposer.Settle | apps/web/app/components/message-input.tsx:121-147 | the registered batch follows the earlier previews with ids, files and URLs kept; warns exactly when an upload was rejected; aborts exactly when an `updateFile` fails |
| WebComposer.SettleStores | apps/web/app/components/message-input.tsx:121-147 | with distinct ids new to the strip, earlier previews are kept and a file is stored exactly when its upload was fulfilled before the first failing `updateFile` |
| WebComposer.DropStoresFulfilled | apps/web/app/components/message-input.tsx:120-147 | with fresh, distinct server ids, earlier previews are kept and a dropped file is stored exactly when its upload was fulfilled and it comes before the first failing `updateFile` |
| WebComposer.LastStoredAbsent | apps/web/app/components/message-input.tsx:143-147 | an id outside the batch gets no storage id |
| WebComposer.LastStoredDistinct | apps/web/app/components/message-input.tsx:143-147 | with distinct ids, each file gets its own upload's outcome |
| WebComposer.RemoveFile | apps/web/app/components/message-input.tsx:156-161 | always calls `files.remove`; filters the list; revokes the URL of the first entry with the id, exactly when the id was present |
| WebComposer.UploadAfterRemoveIsNoOp | apps/web/app/components/message-input.tsx:156-161 | a late upload for a removed preview changes nothing |
| WebComposer.RevokedOnUnmountAsWritten | apps/web/app/components/message-input.tsx:182-190 | the cleanup as written revokes nothing, because its closure holds the mount-time list |
| WebComposer.RevokedOnUnmount | apps/web/app/components/message-input.tsx:182-190 | the intended cleanup revokes the URL of every preview still shown |
| WebComposer.UnmountLeaksPreviewUrl | apps/web/app/components/message-input.tsx:182-190 | with one preview shown, the cleanup as written leaks its URL and the intended one releases it |
| AudioRecorder.ChooseOptions | apps/web/app/components/message-input.tsx:302-309 | picks the first supported format: Opus in WebM, then MP4 at 128 kbit/s, then WebM, else the default; a bit rate is set only for MP4 |
| AudioRecorder.EffectiveMime | apps/web/app/components/message-input.tsx:334 | the recorder's MIME type, or "audio/webm" when it is empty |
| AudioRecorder.Extension | apps/web/app/components/message-input.tsx:343-344 | "m4a" exactly when the type includes "mp4", "webm" otherwise |
| AudioRecorder.ExtensionExamples | apps/web/app/components/message-input.tsx:343-344 | MP4 audio is saved as m4a; a recorder without a type saves webm |
| AudioRecorder.Decimal | apps/web/app/components/message-input.tsx:344 | `String(n)`: digits without a leading zero whose decimal value is `n` |
| AudioRecorder.PositiveSum | apps/web/app/components/message-input.tsx:336-341 | a buffer of non-empty chunks makes a non-empty blob |
| AudioRecorder.StopRecording | apps/web/app/components/message-input.tsx:392-400 | acts only while loading or recording with a recorder; a capturing recorder is told to stop, any other drops straight to idle |
| AudioRecorder.OnStop | apps/web/app/components/message-input.tsx:326-378 | no chunks or an empty blob return to idle with no effect; a preview is made exactly when there is audio and a registered record, with the effective type, the blob size, the timestamped recording name and the object URL, followed by idle, a released stream and an upload toast exactly when the upload failed; an empty registration toasts and a rejected one stays silent, both leaving status and stream as they were |
| AudioRecorder.Step | apps/web/app/components/message-input.tsx:294-416 | the whole transition for each event: toggle (to loading, or stopping a recording), microphone refused (idle with a toast) or granted (a capturing device and an empty buffer), start, data (only a non-empty chunk is kept), stop (dispatching to `OnStop` when a recorder exists), error (idle with a toast), and unmount, which stops the recorder exactly when it is capturing and changes nothing else |
| AudioRecorder.StepKeepsWellformed | apps/web/app/components/message-input.tsx:315-319 | the chunk buffer never holds an empty chunk |
| AudioRecorder.RunKeepsWellformed | apps/web/app/components/message-input.tsx:315-319 | the invariant holds over every event sequence |
| AudioRecorder.CapturedAudioIsDelivered | apps/web/app/components/message-input.tsx:326-378 | in every reachable state with captured chunks, a stop with a preview id delivers that preview and returns to idle |
| AudioRecorder.Deliver | apps/web/app/components/message-input.tsx:225-231 | without a recording or an upload, the strip is unchanged |
| AudioRecorder.RecordingEntersDraft | apps/web/app/components/message-input.tsx:225-231 | a successful recording ends up last in the strip, stored, with the earlier entries untouched |
| AppComposer.EndsWithAny | app/components/message-input.tsx:16-18 | true exactly when the name ends with a dot and one of the extensions |
| AppComposer.IsImage | app/components/message-input.tsx:16-18 | true exactly when the lower-cased name ends with one of the seven image extensions |
| AppComposer.IsImageIgnoresCase | app/components/message-input.tsx:16-18 | the image test ignores letter case |
| AppComposer.IsImageExamples | app/components/message-input.tsx:16-18 | "Photo.JPG" is an image and "notes.txt" is not |
| AppComposer.SendableIff | app/components/message-input.tsx:124 | a message goes out exactly when it has non-blank text or an attachment, and every attachment is stored |
| AppComposer.SentFiles | app/components/message-input.tsx:136 | one `{name, storageId}` record per preview, in order |
| AppComposer.FileAt | app/components/message-input.tsx:61-75 | the i-th optimistic file reads the i-th preview: an empty or missing URL gives null, an empty type the target's fallback, a zero size 10 |
| AppComposer.OptimisticFiles | app/components/message-input.tsx:60-75 | one optimistic file per sent file, each read from the preview at its position |
| AppComposer.OptimisticItem | app/components/message-input.tsx:37-116 | present exactly when the user is loaded; goes to the thread's list, carrying the thread id, when the send names a non-empty thread id, else to the channel's without one; a "created" message with no reactions, the stamp's id and time, the author and channel, and exactly the optimistic files of the sent records, each naming the item's own id as its message |
| AppComposer.Submit | app/components/message-input.tsx:122-142 | ignored exactly when blocked; otherwise sends the channel, thread, trimmed text and one record per preview, and clears the draft |
| AppComposer.Outgoing | app/components/message-input.tsx:133-138 | the send carries the channel, the thread, the trimmed draft and each preview's name and storage id in order |
| AppComposer.OptimisticFilesFollowPreviews | app/components/message-input.tsx:66-72 | on submit, each optimistic file carries its own preview's storage id, URL, type and size, where these are set |
| AppComposer.OnChannelChange | app/components/message-input.tsx:189-195 | a channel switch keeps the draft, previews and thread, records the new channel and its edit-mode session update, and leaves edit mode when the channel is new |
| AppComposer.ReplaceUploaded | app/components/message-input.tsx:163-168 | each entry is replaced by the first uploaded entry with its id, if any; ids and length are kept |
| AppComposer.WithStorage | app/components/message-input.tsx:149-161 | each dropped preview carries its own upload's storage id |
| AppComposer.Drop | app/components/message-input.tsx:143-169 | the new previews are shown at once, after the old ones; one failed upload leaves every entry as shown |
| AppComposer.DropStoresBatch | app/components/message-input.tsx:143-169 | when every upload succeeds and ids are fresh and distinct, the old entries are kept and each new one gets its own storage id |
| AppComposer.FindDistinct | app/components/message-input.tsx:165 | with distinct ids, `find` returns the entry itself |
| AppComposer.DropIndex | app/components/message-input.tsx:174 | removes exactly the entry at the index; an index outside the list changes nothing |
| AppComposer.RemoveAt | app/components/message-input.tsx:173-176 | deletes the entry at the index, shifts the rest, and revokes its URL; an index outside the list changes and revokes nothing |
| FileTypes.SegmentLabel | apps/web/app/components/file-pill.tsx:150 | the upper-cased second segment when it is present and non-empty, else the fallback |
| FileTypes.DefaultIcon | apps/web/app/components/file-pill.tsx:114-124 | the image icon exactly for an `image/` prefix, the video icon exactly for a `video/` one, the archive icon only for archive-like names; never a table-only icon |
| FileTypes.IconFor | apps/web/app/components/file-pill.tsx:33-126 | question mark exactly for "", and the spreadsheet, chart, code and shortcut icons exactly for their listed types; the document icon for PDF and Word, and the image, video, audio, archive and JSON icons for their listed types; unlisted types use the heuristics |
| FileTypes.DefaultLabel | apps/web/app/components/file-pill.tsx:212-220 | never empty; "Image" for an `image/` prefix; "Archive" exactly when the archive heuristic is the first to match |
| FileTypes.LabelFor | apps/web/app/components/file-pill.tsx:128-222 | never empty; "Unknown" for ""; "PDF", "Word", "PowerPoint", "Excel", "Archive", "JSON", "Shortcut" and the code language for their listed types; unlisted types use the heuristics |
| FileTypes.ArchiveIconIffLabel | apps/web/app/components/file-pill.tsx:79-84 | the archive icon is shown exactly when the label reads "Archive" |
| FileTypes.QuestionIconIffUnknown | apps/web/app/components/file-pill.tsx:111-113 | the question icon is shown exactly when the label reads "Unknown" |
| FileTypes.LabelNotUnknown | apps/web/app/components/file-pill.tsx:128-222 | only the empty type is labelled "Unknown"; every other branch of the label table yields something else |
| FileTypes.PrefixChar | apps/web/app/components/file-pill.tsx:116 | a string that starts with a prefix has the prefix's characters at its start |
| FileTypes.ImageIconMeansImagePrefix | apps/web/app/components/file-pill.tsx:52-60 | the image icon is shown only for types starting with `image/` |
| FileTypes.CodeTypesLabelled | apps/web/app/components/file-pill.tsx:174-205 | every source-code type gets the code icon and its language label |
| FileTypes.CodeTypesApart | apps/web/app/components/file-pill.tsx:37-105 | no case before the source-code cases lists a source-code type, so the code icon case is the one reached |
| FileTypes.SpreadsheetIffExcel | apps/web/app/components/file-pill.tsx:138-141 | the spreadsheet icon is shown exactly when the label reads "Excel" |
| FileTypes.ImageLabelHasImageIcon | apps/web/app/components/file-pill.tsx:213 | the label "Image" comes with the image icon |
| FileTypes.ListedImageLabel | apps/web/app/components/file-pill.tsx:142-150 | a listed image type shows the image icon and its upper-cased subtype as label |
| FileTypes.ImageTypeNotEarlier | apps/web/app/components/file-pill.tsx:130-149 | no listed image type is caught by an earlier case |
| FileTypes.ImageTypeShape | apps/web/app/components/file-pill.tsx:142-149 | every listed image type is `image/` and a subtype without a slash |
| FileTypes.ListedVideoLabel | apps/web/app/components/file-pill.tsx:151-157 | a listed video type shows the video icon and its upper-cased subtype as label |
| FileTypes.ListedAudioLabel | apps/web/app/components/file-pill.tsx:158-165 | a listed audio type shows the audio icon and its upper-cased subtype as label |
| FileTypes.VideoTypeShape | apps/web/app/components/file-pill.tsx:151-156 | every listed video type is `video/` and a subtype without a slash |
| FileTypes.AudioTypeShape | apps/web/app/components/file-pill.tsx:158-164 | every listed audio type is `audio/` and a subtype without a slash |
| FileTypes.ListedApart | apps/web/app/components/file-pill.tsx:35-109 | each listed case of the tables is reached: no earlier case names a Word, video, audio, archive, JSON or shortcut type |
| FileTypes.SvgLabel | apps/web/app/components/file-pill.tsx:147-150 | "image/svg+xml" is labelled "SVG+XML" |
| FileTypes.UpperSvg | apps/web/app/components/file-pill.tsx:150 | upper-casing "svg+xml" gives "SVG+XML" |
| FileTypes.UnlistedMedia | apps/web/app/components/file-pill.tsx:116-118 | unlisted image, video and audio types get the matching icon and a generic label |
| FileTypes.UnlistedText | apps/web/app/components/file-pill.tsx:119 | unlisted text types get the document icon and their upper-cased subtype, or "Text" |
| FileTypes.UnlistedJson | apps/web/app/components/file-pill.tsx:120 | types starting with `application/json` get the JSON icon and label |
| FileTypes.UnlistedArchive | apps/web/app/components/file-pill.tsx:121-122 | other types naming zip, tar, rar or 7z get the archive icon and label |
| FileTypes.Fallback | apps/web/app/components/file-pill.tsx:123 | everything else gets the generic icon and its upper-cased second segment, or "Unknown File" |
| Channels.FindChannel | packages/backend/convex/channels.ts:139-140 | the position of the channel with that id, or none exactly when it is absent |
| Channels.FindActivity | packages/backend/convex/channels.ts:78-82 | the caller's first activity record for the channel, or none exactly when there is none |
| Channels.FindOrder | packages/backend/convex/channels.ts:233-237 | the first record for the caller and channel, or none exactly when there is none |
| Channels.LastOrder | packages/backend/convex/channels.ts:27 | the order map's value for a channel comes from one of the user's records for it, and is absent exactly when there is none |
| Channels.LastOrderOfUnique | packages/backend/convex/channels.ts:27 | with one record per channel, the map returns that record's order |
| Channels.LastOrderIsLast | packages/backend/convex/channels.ts:27 | the map returns the order of the last record for the pair |
| Channels.Live | packages/backend/convex/channels.ts:14-20 | exactly the team's channels without an archive time, each as many times as it is stored |
| Channels.Insert | packages/backend/convex/channels.ts:29-33 | the result holds the input plus exactly that channel, counted with multiplicity |
| Channels.InsertSorted | packages/backend/convex/channels.ts:29-33 | inserting into a list sorted by the caller's key keeps it sorted |
| Channels.SortByKey | packages/backend/convex/channels.ts:29-33 | the result is sorted by the caller's order, or creation time when there is none, and is a permutation of the input |
| Channels.Since | packages/backend/convex/channels.ts:44-59 | a missing record, a missing read time and a read time of 0 all mean never read; any other read time is used as is |
| Channels.CountUnread | packages/backend/convex/channels.ts:44-59 | at most every message is counted, and zero exactly when no message is unread |
| Channels.CountUnreadAppend | packages/backend/convex/channels.ts:44-59 | the count of two logs is the sum of their counts |
| Channels.CountUnreadOne | packages/backend/convex/channels.ts:44-59 | a single message counts one exactly when it is by someone else, in the channel, and at or after the read mark |
| Channels.CountUnreadMonotone | packages/backend/convex/channels.ts:44-59 | a later read mark never counts more messages, and never-read counts the most |
| Channels.View | packages/backend/convex/channels.ts:38-64 | muted exactly when the first activity record says so; the unread count is the number of messages by others at or after the read mark (all of them without one), capped at 100 |
| Channels.ViewWithoutRecord | packages/backend/convex/channels.ts:44-64 | without an activity record, every message by someone else counts, up to 100, and the channel is not muted |
| Channels.Views | packages/backend/convex/channels.ts:35-68 | one view per channel, in the same order |
| Channels.SortedCoversLive | packages/backend/convex/channels.ts:14-33 | sorting keeps exactly the team's live channels |
| Channels.List | packages/backend/convex/channels.ts:6-70 | fails on an invalid team id or a refused caller; otherwise one view per live channel of the team, sorted by the caller's key, each the channel's `View` |
| Channels.MaxOrder | packages/backend/convex/channels.ts:124 | the largest of the caller's orders, or -1 when there is none |
| Channels.Refusal | packages/backend/convex/channels.ts:101-114 | a blank name is refused first, then an invalid team, then a refused caller, then a name already used in the team; none exactly when all checks pass |
| Channels.AddChannel | packages/backend/convex/channels.ts:116-126 | appends the channel under the given name and an order record one past the creator's largest order; nothing else in the store changes |
| Channels.Create | packages/backend/convex/channels.ts:98-130 | fails exactly when `Refusal` gives a reason, with that reason; otherwise performs `AddChannel` with the lower-cased, trimmed name for the caller |
| Channels.CreateOrdersLast | packages/backend/convex/channels.ts:119-126 | the new channel's order comes after all the caller's orders, and is 0 for a caller without orders |
| Channels.CreateKeepsInvariants | packages/backend/convex/channels.ts:109-126 | creating keeps names unique within a team and one order record per user and channel |
| Channels.AddChannelKeepsInvariants | packages/backend/convex/channels.ts:109-126 | appending a channel whose name is free in its team, with a fresh id, keeps both uniqueness invariants |
| Channels.Update | packages/backend/convex/channels.ts:132-151 | succeeds exactly when the id is valid, the caller may manage the channel and it exists, with the three errors otherwise; empty fields count as absent; an archive time overrides the new name with the old name and the formatted time; nothing else changes |
| Channels.ArchivedLeavesList | packages/backend/convex/channels.ts:144-147 | an archived channel no longer appears in `list` |
| Channels.ToggleMute | packages/backend/convex/channels.ts:153-181 | succeeds exactly when the id is valid, there is a caller and the channel exists, with the three errors otherwise; without a record, inserts a muted one that marks the channel read; otherwise flips the first record's flag; nothing else changes |
| Channels.ToggleMuteFlips | packages/backend/convex/channels.ts:163-179 | after one toggle the channel is muted exactly when it was not; two toggles restore an existing record |
| Channels.FindActivityAfterAppend | packages/backend/convex/channels.ts:169-176 | after inserting the first record for a pair, the lookup finds it |
| Channels.FindActivitySameKeys | packages/backend/convex/channels.ts:178 | patching a field other than channel and user keeps the lookup |
| Channels.MarkAsRead | packages/backend/convex/channels.ts:72-96 | sets the caller's read time, inserting an unmuted record only when there is none; nothing else changes |
| Channels.MarkAsReadClearsUnread | packages/backend/convex/channels.ts:44-96 | reading at a time after all messages brings the unread count to zero and keeps the mute flag |
| Channels.CheckEntry | packages/backend/convex/channels.ts:227-231 | an entry passes exactly when its channel exists in one of the caller's teams |
| Channels.UpsertOrder | packages/backend/convex/channels.ts:233-243 | the caller's key for the channel becomes the given order, other keys stay, and records stay unique |
| Channels.PatchFacts | packages/backend/convex/channels.ts:239-240 | patching a record sets its key and leaves every other key alone |
| Channels.LastOrderIgnoresOtherPatch | packages/backend/convex/channels.ts:239-240 | patching another pair's record does not change a lookup |
| Channels.ApplyOrders | packages/backend/convex/channels.ts:226-244 | succeeds exactly when every entry passes its check, and keeps records unique; a failure carries the error of the first failing entry |
| Channels.ApplyFrom | packages/backend/convex/channels.ts:226-244 | succeeds exactly when every entry passes; otherwise fails with the error of the first failing entry, "not found" or "not in team" |
| Channels.UpdateOrder | packages/backend/convex/channels.ts:214-246 | all or nothing: succeeds exactly when the caller is known and every entry passes; only the order table changes; a failure carries the error of the first failing entry ("Channel not found" or not in the caller's teams) |
| Channels.ApplyFromSetsLast | packages/backend/convex/channels.ts:226-244 | after the loop, each listed channel's key is the last order given for it |
| Channels.ApplyFromKeeps | packages/backend/convex/channels.ts:226-244 | entries for other channels leave a key alone |
| Channels.UpdateOrderSetsKeys | packages/backend/convex/channels.ts:214-246 | after a successful save, the caller's key for each listed channel is the last order given for it |
| Channels.ApplyFromOtherUsers | packages/backend/convex/channels.ts:226-244 | the loop leaves every other user's order lookup unchanged |
| Channels.UpdateOrderKeepsOtherUsers | packages/backend/convex/channels.ts:214-246 | a successful save leaves every other user's order for every channel unchanged |
| NewChannel.OnInput | apps/web/app/components/new-channel.tsx:57 | the name field holds the typed text lower-cased |
| NewChannel.MakeRequest | apps/web/app/components/new-channel.tsx:39-43 | skipped exactly when the team id is missing or empty or the name is blank; otherwise sends the lower-cased, trimmed name |
| NewChannel.Settle | apps/web/app/components/new-channel.tsx:44-49 | success closes the form and opens `/team/channel`; failure keeps the form and shows an error |
| NewChannel.SentNameIsNormal | apps/web/app/components/new-channel.tsx:43 | the sent name is not blank and is already in the server's normal form |
| NewChannel.ServerStoresSentName | apps/web/app/components/new-channel.tsx:43 | the server never refuses the sent name as blank, and stores it unchanged |

## Left out

- React rendering, refs, focus handling, toasts' wording beyond the recorder's, and posthog analytics: they do not change the composer's data.
- Network calls, `crypto.randomUUID()`, `Date.now()`, `URL.createObjectURL` and the permission checks (`canManageTeam`, `canManageTeamChannel`, `requireUser`) appear as parameters: the model takes their outcomes as inputs.
- `ctx.db.normalizeId` is a boolean parameter saying whether the id was well-formed; table ids are natural numbers.
- The channel table's rows are kept in insertion order, which stands for `_creationTime` order; `_creationTime` is a field of each channel.
- Concurrency: each drop's uploads settle against the list as it was right after the drop; interleavings with later drops or removals are not modelled, apart from the late-completion lemmas.
- The `get` query, the `dmUser` join and storage URL lookups in `list`: they only read data.
- `insertAtPosition` in the optimistic updates: the model states which list receives the item and what the item holds, not where it lands in the page.
- `dayjs(t).format()` is a parameter of `Channels.Update`.
- Numbers: `order` (validated as `v.number()`) and `_creationTime` are JavaScript floating-point numbers, modelled as integers; fractional, infinite and NaN orders, which would reach the sort's subtraction and `Math.max`, are not modelled.
- WebComposer.Drop: a rejected `createFilePreviews` call is not an input of its own; it ends the drop exactly as a missing server id does, by throwing before anything is shown, which is the model's `None`.
- Whitespace and case: only ASCII is modelled; JavaScript's `trim` also strips Unicode spaces.
- The audio bytes are not modelled, only the chunk sizes.
- Recorder races: when `mediaRecorder.start()` throws after the recorder was stored in its ref, the real ref keeps a recorder that is not capturing, while the model's `MicReady` then `MicDenied` leaves the device marked capturing. And each `onstop` handler closes over its own recorder and stream, whereas the model's `Stopped` is one atomic step over the current device. Interleavings of two recording sessions are therefore not modelled.
- Channels.SortByKey: states sortedness and permutation but not the stability of `Array.prototype.sort`; `Insert` does place equal keys in stable order.
- FileTypes.ImageIconMeansImagePrefix: proved in one direction only; the converse holds for listed types by `ListedImageLabel` and for unlisted ones by `UnlistedMedia`.
- EditMode.ArrowUpKey: has no contract of its own; `ArrowUpEntersEditIff` states its behaviour.
- The web composer does not wait for uploads before sending, keeps the draft when the channel changes, and its recorder's `onstop` returns early without resetting the status or releasing the stream when no preview record comes back or the registration call rejects; the model reproduces all of these as written.

## Findings

| source | as written | input that shows it | evidently intended | confidence | as-written member | corrected member |
|---|---|---|---|---|---|---|
| apps/web/app/components/message-input.tsx:182-190 | the unmount cleanup is an effect with no dependencies, so its closure holds the mount-time preview list, which is empty | drop one file, then unmount the composer: its object URL is never revoked | revoke the URL of every preview still shown at unmount | not executed | WebComposer.RevokedOnUnmountAsWritten | WebComposer.RevokedOnUnmount |

=== FILE: app_composer.dfy ===
/** The message composer of the second client (app/): like the web one, but
    a submit also waits for every attachment to carry a storage id, the
    attachments travel with the message as `{name, storageId}` records, a
    drop's previews are replaced only when the whole batch uploads, removal
    is by position, and the optimistic message goes to a thread's list or to
    the channel's list. */
module AppComposer {
  import opened Common
  import opened Text
  import opened Previews
  import EditMode

  type ChannelId = string
  type ThreadId = string
  type MessageId = string

  /** The extensions the preview strip renders as images. */
  const ImageExtensions: seq<string> := ["jpg", "jpeg", "png", "gif", "webp", "bmp", "svg"]

  function EndsWithAny(name: string, exts: seq<string>): (r: bool)
    ensures r <==> exists k :: 0 <= k < |exts| && EndsWith(name, "." + exts[k])
  {
    if exts == [] then false
    else
      var rest := EndsWithAny(name, exts[1..]);
      assert forall k :: 1 <= k < |exts| ==> exts[k] == exts[1..][k - 1];
      EndsWith(name, "." + exts[0]) || rest
  }

  /** `isImage`: the file name ends, ignoring case, with a dot and one of the
      extensions jpg, jpeg, png, gif, webp, bmp or svg. */
  function IsImage(name: string): (r: bool)
    ensures r <==> exists k :: 0 <= k < |ImageExtensions| && EndsWith(ToLower(name), "." + ImageExtensions[k])
  {
    EndsWithAny(ToLower(name), ImageExtensions)
  }

  /** The test ignores letter case. */
  lemma IsImageIgnoresCase(name: string)
    ensures IsImage(ToLower(name)) == IsImage(name)
  {
    ToLowerIdempotent(name);
  }

  lemma IsImageExamples()
    ensures IsImage("Photo.JPG")
    ensures !IsImage("notes.txt")
  {
    assert ToLower("Photo.JPG") == "photo.jpg";
    assert EndsWith("photo.jpg", "." + ImageExtensions[0]);
    var t := ToLower("notes.txt");
    assert t == "notes.txt";
    forall k | 0 <= k < |ImageExtensions|
      ensures !EndsWith(t, "." + ImageExtensions[k])
    {
      var suffix := "." + ImageExtensions[k];
      assert suffix[|suffix| - 1] != 't';
      LastCharDiffers(t, suffix);
    }
  }

  lemma LastCharDiffers(s: string, suffix: string)
    requires |s| > 0 && |suffix| > 0 && s[|s| - 1] != suffix[|suffix| - 1]
    ensures !EndsWith(s, suffix)
  {
  }

  datatype Composer = Composer(
    channelId: ChannelId,
    threadId: Option<ThreadId>,
    text: string,
    previews: seq<Preview>,
    session: EditMode.Session)

  predicate AllStored(ps: seq<Preview>) {
    forall i :: 0 <= i < |ps| ==> Truthy(ps[i].storageId)
  }

  /** JavaScript truthiness of an optional string: present and non-empty. */
  predicate Truthy(o: Option<string>) {
    o.Some? && o.value != []
  }

  /** Submit does nothing, and the button is disabled, when there is neither
      text nor an attachment, or when some attachment is still uploading. */
  predicate Blocked(text: string, ps: seq<Preview>) {
    (Trim(text) == [] && |ps| == 0) || exists i :: 0 <= i < |ps| && !Truthy(ps[i].storageId)
  }

  /** A message goes out exactly when it has non-blank text or an attachment
      and every attachment has been stored. */
  lemma SendableIff(text: string, ps: seq<Preview>)
    ensures !Blocked(text, ps) <==> (!Blank(text) || |ps| > 0) && AllStored(ps)
  {
    TrimEmptyIffBlank(text);
  }

  datatype SentFile = SentFile(name: string, storageId: StorageId)

  datatype SendArgs = SendArgs(channelId: ChannelId, content: string, files: seq<SentFile>, threadId: Option<ThreadId>)

  /** The file records of a send: each preview's file name with its storage
      id, in strip order. */
  function SentFiles(ps: seq<Preview>): (r: seq<SentFile>)
    requires AllStored(ps)
    ensures |r| == |ps|
    ensures forall i :: 0 <= i < |ps| ==> r[i] == SentFile(ps[i].file.name, ps[i].storageId.value)
  {
    if ps == [] then [] else [SentFile(ps[0].file.name, ps[0].storageId.value)] + SentFiles(ps[1..])
  }

  datatype User = User(id: string, name: string)

  /** A `crypto.randomUUID()` together with the `Date.now()` read beside it. */
  datatype Stamp = Stamp(id: string, time: int)

  /** The paginated list the optimistic message is inserted into. */
  datatype Target = ThreadList(threadId: ThreadId) | ChannelList(channelId: ChannelId)

  datatype Metadata = Metadata(id: string, creationTime: int, contentType: string, sha256: string, size: nat)

  datatype OptimisticFile = OptimisticFile(
    id: string, name: string, creationTime: int, messageId: MessageId,
    url: Option<string>, metadata: Metadata, storageId: StorageId)

  datatype Reaction = Reaction(emoji: string, userId: string)

  /** The inserted item; `threadId` is set on the thread branch only, and the
      channel branch's `threadInfo: null` is not represented. */
  datatype OptimisticMessage = OptimisticMessage(
    id: MessageId, authorId: string, content: string, author: User, channelId: ChannelId,
    threadId: Option<ThreadId>, creationTime: int, status: string,
    reactions: seq<Reaction>, files: seq<OptimisticFile>)

  datatype Insertion = Insertion(target: Target, item: OptimisticMessage)

  /** The content type assumed for an attachment without one. */
  function FallbackType(t: Target): string {
    if t.ThreadList? then "application/octet-stream" else "image/png"
  }

  /** The optimistic entry for the i-th sent file, reading the i-th preview
      with JavaScript's `||` fallbacks: an empty or missing URL gives null, an
      empty or missing type the target's fallback, a zero or missing size 10. */
  function FileAt(f: SentFile, i: nat, ps: seq<Preview>, t: Target, messageId: MessageId,
                  stamps: (Stamp, Stamp)): (r: OptimisticFile)
    ensures r.name == f.name && r.storageId == f.storageId && r.messageId == messageId
    ensures r.url.None? <==> i >= |ps| || ps[i].url == []
    ensures r.url.Some? ==> r.url.value == ps[i].url
    ensures r.metadata.contentType == (if i < |ps| && ps[i].file.contentType != [] then ps[i].file.contentType else FallbackType(t))
    ensures r.metadata.size == (if i < |ps| && ps[i].file.size != 0 then ps[i].file.size else 10)
    ensures r.metadata.size > 0 && r.metadata.contentType != []
  {
    var preview := if i < |ps| then Some(ps[i]) else None;
    var url := if preview.Some? && preview.value.url != [] then Some(preview.value.url) else None;
    var contentType := if preview.Some? && preview.value.file.contentType != [] then preview.value.file.contentType else FallbackType(t);
    var size := if preview.Some? && preview.value.file.size != 0 then preview.value.file.size else 10;
    OptimisticFile(stamps.0.id, f.name, stamps.0.time, messageId, url,
                   Metadata(stamps.1.id, stamps.1.time, contentType, "", size), f.storageId)
  }

  function OptimisticFiles(files: seq<SentFile>, ps: seq<Preview>, t: Target, messageId: MessageId,
                           stamps: seq<(Stamp, Stamp)>): (r: seq<OptimisticFile>)
    requires |stamps| == |files|
    ensures |r| == |files|
    ensures forall i :: 0 <= i < |files| ==> r[i] == FileAt(files[i], i, ps, t, messageId, stamps[i])
  {
    seq(|files|, i requires 0 <= i < |files| => FileAt(files[i], i, ps, t, messageId, stamps[i]))
  }

  /** The optimistic update: nothing before the current user is loaded;
      otherwise a "created" message without reactions, inserted into the
      thread's list when the send names a thread and into the channel's list
      otherwise. */
  function OptimisticItem(user: Option<User>, channelId: ChannelId, args: SendArgs, ps: seq<Preview>,
                          stamp: Stamp, fileStamps: seq<(Stamp, Stamp)>): (r: Option<Insertion>)
    requires |fileStamps| == |args.files|
    ensures r.Some? <==> user.Some?
    ensures r.Some? ==>
      && (r.value.target == if Truthy(args.threadId) then ThreadList(args.threadId.value) else ChannelList(channelId))
      && r.value.item.threadId == (if Truthy(args.threadId) then args.threadId else None)
      && r.value.item.status == "created" && r.value.item.reactions == []
      && r.value.item.content == args.content && r.value.item.authorId == user.value.id
      && r.value.item.author == user.value && r.value.item.channelId == channelId
      && r.value.item.id == stamp.id && r.value.item.creationTime == stamp.time
      && r.value.item.files == OptimisticFiles(args.files, ps, r.value.target, stamp.id, fileStamps)
      && |r.value.item.files| == |args.files|
      && forall i :: 0 <= i < |args.files| ==> r.value.item.files[i].messageId == r.value.item.id
  {
    match user
    case None => None
    case Some(u) =>
      var thread := Truthy(args.threadId);
      var target := if thread then ThreadList(args.threadId.value) else ChannelList(channelId);
      var files := OptimisticFiles(args.files, ps, target, stamp.id, fileStamps);
      Some(Insertion(target, OptimisticMessage(stamp.id, u.id, args.content, u, channelId,
                                                if thread then args.threadId else None,
                                                stamp.time, "created", [], files)))
  }

  datatype SubmitResult =
    | Ignored
    | Sent(args: SendArgs, optimistic: Option<Insertion>, after: Composer)

  /** `handleSendMessage`: unless blocked, clear text and previews and send
      the trimmed text with one `{name, storageId}` per preview, in order. The
      send is fired without being awaited, so its failure never reaches the
      composer. */
  function Submit(c: Composer, user: Option<User>, stamp: Stamp, fileStamps: seq<(Stamp, Stamp)>): (r: SubmitResult)
    requires |fileStamps| == |c.previews|
    ensures r.Ignored? <==> Blocked(c.text, c.previews)
    ensures r.Sent? ==> Carries(r.args, c) && r.after == c.(text := [], previews := [])
    ensures r.Sent? ==> |r.args.files| == |fileStamps| && r.optimistic == OptimisticItem(user, c.channelId, r.args, c.previews, stamp, fileStamps)
  {
    if Blocked(c.text, c.previews) then Ignored
    else
      var args := Outgoing(c);
      Sent(args, OptimisticItem(user, c.channelId, args, c.previews, stamp, fileStamps), c.(text := [], previews := []))
  }

  /** The arguments of the send built from a composer whose previews are
      all stored. */
  function Outgoing(c: Composer): (args: SendArgs)
    requires AllStored(c.previews)
    ensures Carries(args, c)
  {
    var files := SentFiles(c.previews);
    assert forall i :: 0 <= i < |c.previews| ==>
      files[i].name == c.previews[i].file.name && Some(files[i].storageId) == c.previews[i].storageId;
    SendArgs(c.channelId, Trim(c.text), files, c.threadId)
  }

  /** The send carries the composer's channel and thread, the trimmed draft,
      and each preview's name and storage id, in order. */
  predicate Carries(args: SendArgs, c: Composer) {
    && args.channelId == c.channelId && args.threadId == c.threadId
    && args.content == Trim(c.text)
    && |args.files| == |c.previews|
    && forall i :: 0 <= i < |c.previews| ==>
         args.files[i].name == c.previews[i].file.name && Some(args.files[i].storageId) == c.previews[i].storageId
  }

  /** On submit every optimistic file reads the preview at its own position:
      URL, content type and size come from that preview unless empty. */
  lemma OptimisticFilesFollowPreviews(c: Composer, user: User, stamp: Stamp, fileStamps: seq<(Stamp, Stamp)>)
    requires |fileStamps| == |c.previews|
    requires !Blocked(c.text, c.previews)
    ensures var r := Submit(c, Some(user), stamp, fileStamps);
      && r.Sent? && r.optimistic.Some?
      && var files := r.optimistic.value.item.files;
         |files| == |c.previews| &&
         forall i :: 0 <= i < |c.previews| ==>
           && Some(files[i].storageId) == c.previews[i].storageId
           && (c.previews[i].url != [] ==> files[i].url == Some(c.previews[i].url))
           && (c.previews[i].file.contentType != [] ==> files[i].metadata.contentType == c.previews[i].file.contentType)
           && (c.previews[i].file.size != 0 ==> files[i].metadata.size == c.previews[i].file.size)
  {
    var r := Submit(c, Some(user), stamp, fileStamps);
    var args := r.args;
    var target := r.optimistic.value.target;
    var files := r.optimistic.value.item.files;
    assert files == OptimisticFiles(args.files, c.previews, target, stamp.id, fileStamps);
    forall i | 0 <= i < |c.previews|
      ensures Some(files[i].storageId) == c.previews[i].storageId
      ensures c.previews[i].url != [] ==> files[i].url == Some(c.previews[i].url)
      ensures c.previews[i].file.contentType != [] ==> files[i].metadata.contentType == c.previews[i].file.contentType
      ensures c.previews[i].file.size != 0 ==> files[i].metadata.size == c.previews[i].file.size
    {
      assert files[i] == FileAt(args.files[i], i, c.previews, target, stamp.id, fileStamps[i]);
    }
  }

  function OnChannelChange(c: Composer, channelId: ChannelId): (r: Composer)
    ensures r.text == c.text && r.previews == c.previews && r.threadId == c.threadId
    ensures c.session.previousChannel != Some(channelId) ==> r.session.editMessageId == None
    ensures r.channelId == channelId && r.session == EditMode.OnChannel(c.session, channelId)
  {
    c.(channelId := channelId, session := EditMode.OnChannel(c.session, channelId))
  }

  // ---------------------------------------------------------------------------
  // Dropping and removing files

  /** Each preview is replaced by the first uploaded entry with its id, and
      kept when there is none. */
  function ReplaceUploaded(ps: seq<Preview>, uploaded: seq<Preview>): (r: seq<Preview>)
    ensures |r| == |ps|
    ensures forall i :: 0 <= i < |ps| ==> r[i] == (if HasId(uploaded, ps[i].id) then Find(uploaded, ps[i].id).value else ps[i])
    ensures forall i :: 0 <= i < |ps| ==> r[i].id == ps[i].id
  {
    if ps == [] then []
    else [if HasId(uploaded, ps[0].id) then Find(uploaded, ps[0].id).value else ps[0]] + ReplaceUploaded(ps[1..], uploaded)
  }

  /** The dropped previews with the storage ids their uploads returned. */
  function WithStorage(batch: seq<Preview>, uploads: seq<Option<StorageId>>): (r: seq<Preview>)
    requires |uploads| == |batch| && forall i :: 0 <= i < |uploads| ==> uploads[i].Some?
    ensures |r| == |batch|
    ensures forall i :: 0 <= i < |batch| ==> r[i] == batch[i].(storageId := uploads[i])
  {
    if batch == [] then [] else [batch[0].(storageId := uploads[0])] + WithStorage(batch[1..], uploads[1..])
  }

  datatype DropOutcome = DropOutcome(shown: seq<Preview>, settled: seq<Preview>)

  /** `onDrop`: show the new previews at once, then — only if every upload
      of the batch succeeds (`Promise.all`) — replace them by their uploaded
      versions. One failure leaves every entry as it was shown. */
  function Drop(current: seq<Preview>, files: seq<FileInfo>, ids: seq<FileId>, urls: seq<string>,
                uploads: seq<Option<StorageId>>): (r: DropOutcome)
    requires |ids| == |files| && |urls| == |files| && |uploads| == |files|
    ensures r.shown == current + Fresh(files, ids, urls)
    ensures (exists i :: 0 <= i < |uploads| && uploads[i].None?) ==> r.settled == r.shown
    ensures |r.settled| == |r.shown|
  {
    var batch := Fresh(files, ids, urls);
    var shown := current + batch;
    if forall i :: 0 <= i < |uploads| ==> uploads[i].Some? then
      DropOutcome(shown, ReplaceUploaded(shown, WithStorage(batch, uploads)))
    else DropOutcome(shown, shown)
  }

  /** With fresh, distinct ids and every upload successful, the drop keeps
      the earlier entries and stores each new one with its own upload's
      storage id. */
  lemma DropStoresBatch(current: seq<Preview>, files: seq<FileInfo>, ids: seq<FileId>, urls: seq<string>,
                        uploads: seq<Option<StorageId>>)
    requires |ids| == |files| && |urls| == |files| && |uploads| == |files|
    requires forall i :: 0 <= i < |uploads| ==> uploads[i].Some?
    requires forall i, j :: 0 <= i < j < |ids| ==> ids[i] != ids[j]
    requires forall i, k :: 0 <= i < |ids| && 0 <= k < |current| ==> ids[i] != current[k].id
    ensures var r := Drop(current, files, ids, urls, uploads).settled;
      && r[..|current|] == current
      && forall i :: 0 <= i < |files| ==> r[|current| + i] == Preview(ids[i], files[i], urls[i], uploads[i])
  {
    var batch := Fresh(files, ids, urls);
    var up := WithStorage(batch, uploads);
    var shown := current + batch;
    var r := ReplaceUploaded(shown, up);
    forall k | 0 <= k < |current|
      ensures r[k] == current[k]
    {
      assert shown[k] == current[k];
      assert !HasId(up, current[k].id);
    }
    forall i | 0 <= i < |files|
      ensures r[|current| + i] == Preview(ids[i], files[i], urls[i], uploads[i])
    {
      assert shown[|current| + i] == batch[i];
      assert up[i].id == ids[i];
      FindDistinct(up, i);
    }
    assert r[..|current|] == current;
  }

  lemma FindDistinct(ps: seq<Preview>, i: nat)
    requires i < |ps|
    requires forall a, b :: 0 <= a < b < |ps| ==> ps[a].id != ps[b].id
    ensures HasId(ps, ps[i].id) && Find(ps, ps[i].id) == Some(ps[i])
  {
    var k := FindIndex(ps, ps[i].id);
    assert k.Some?;
    assert k.value == i;
  }

  /** The strip without the entry at position `index`; an index out of range
      removes nothing. */
  function DropIndex(ps: seq<Preview>, index: int): (r: seq<Preview>)
    ensures 0 <= index < |ps| ==> r == ps[..index] + ps[index + 1..]
    ensures !(0 <= index < |ps|) ==> r == ps
    decreases |ps|
  {
    if ps == [] then []
    else (if index == 0 then [] else [ps[0]]) + DropIndex(ps[1..], index - 1)
  }

  datatype Removal = Removal(previews: seq<Preview>, revoked: Option<string>)

  /** `handleRemoveFile(index)`: delete the entry at that position and revoke
      its URL; an index outside the list changes nothing and revokes nothing. */
  function RemoveAt(ps: seq<Preview>, index: int): (r: Removal)
    ensures 0 <= index < |ps| ==>
      && |r.previews| == |ps| - 1
      && (forall k :: 0 <= k < index ==> r.previews[k] == ps[k])
      && (forall k :: index <= k < |r.previews| ==> r.previews[k] == ps[k + 1])
      && r.revoked == Some(ps[index].url)
    ensures !(0 <= index < |ps|) ==> r.previews == ps && r.revoked == None
  {
    Removal(DropIndex(ps, index), if 0 <= index < |ps| then Some(ps[index].url) else None)
  }
}

=== FILE: audio_recorder.dfy ===
/** The voice-recording button of the web composer: a three-state machine
    (idle, loading while the microphone is acquired, recording) driven by the
    button and by the browser's MediaRecorder callbacks. When recording stops
    with captured audio, the result becomes a preview in the composer's
    attachment strip and is uploaded like a dropped file. */
module AudioRecorder {
  import opened Common
  import opened Text
  import opened Previews

  datatype Status = Idle | Loading | Recording

  /** `MediaRecorder.state`. */
  datatype DeviceState = Inactive | Capturing | Paused

  /** The MediaRecorder held in the component's ref, with the MIME type the
      browser settled on (possibly empty). */
  datatype Device = Device(state: DeviceState, mimeType: string)

  /** The component's status, its recorder ref and its chunk buffer (chunk
      sizes only; the bytes are not modelled). */
  datatype Recorder = Recorder(status: Status, device: Option<Device>, chunks: seq<nat>)

  const Initial := Recorder(Idle, None, [])

  /** The options passed to `new MediaRecorder`. */
  datatype RecorderOptions = RecorderOptions(mimeType: Option<string>, bitsPerSecond: Option<nat>)

  /** The first supported format in order of preference: Opus in WebM, then
      MP4 at 128 kbit/s, then plain WebM, else the browser's default. */
  function ChooseOptions(webmOpus: bool, mp4: bool, webm: bool): (r: RecorderOptions)
    ensures r.mimeType == Some("audio/webm;codecs=opus") <==> webmOpus
    ensures r.mimeType == Some("audio/mp4") <==> !webmOpus && mp4
    ensures r.mimeType == Some("audio/webm") <==> !webmOpus && !mp4 && webm
    ensures r.mimeType == None <==> !webmOpus && !mp4 && !webm
    ensures r.bitsPerSecond.Some? <==> r.mimeType == Some("audio/mp4")
  {
    if webmOpus then RecorderOptions(Some("audio/webm;codecs=opus"), None)
    else if mp4 then RecorderOptions(Some("audio/mp4"), Some(128000))
    else if webm then RecorderOptions(Some("audio/webm"), None)
    else RecorderOptions(None, None)
  }

  /** The type the recording is labelled with: the recorder's own MIME type,
      or WebM audio when the browser reports an empty one. */
  function EffectiveMime(deviceMime: string): (r: string)
    ensures |r| > 0
    ensures deviceMime != [] ==> r == deviceMime
  {
    if deviceMime == [] then "audio/webm" else deviceMime
  }

  /** The recording's file extension: "m4a" exactly for MP4 audio. */
  function Extension(mime: string): (r: string)
    ensures r == "m4a" <==> Contains(mime, "mp4")
    ensures r == "webm" <==> !Contains(mime, "mp4")
  {
    if Contains(mime, "mp4") then "m4a" else "webm"
  }

  lemma ExtensionExamples()
    ensures Extension("audio/mp4") == "m4a"
    ensures Extension(EffectiveMime("")) == "webm"
  {
    ContainsAt("audio/mp4", "mp4", 6);
    assert "mp4"[1] == 'p';
    MissingCharNotContained("audio/webm", "mp4", 'p');
  }

  /** The number a string of decimal digits spells, most significant first. */
  function DigitsValue(s: string): int {
    if s == [] then 0 else DigitsValue(s[..|s| - 1]) * 10 + (s[|s| - 1] as int - 48)
  }

  /** `String(n)` for a non-negative integer: the digits that spell `n`,
      without a leading zero. */
  function Decimal(n: nat): (r: string)
    ensures |r| > 0
    ensures forall i :: 0 <= i < |r| ==> '0' <= r[i] <= '9'
    ensures DigitsValue(r) == n
    ensures r[0] == '0' ==> r == "0"
  {
    var d := [(48 + n % 10) as char];
    if n < 10 then
      assert d[..0] == [];
      d
    else
      var r := Decimal(n / 10) + d;
      assert r[..|r| - 1] == Decimal(n / 10);
      r
  }

  /** `recording-${Date.now()}.${ext}`. */
  function RecordingName(now: nat, mime: string): string {
    "recording-" + Decimal(now) + "." + Extension(mime)
  }

  function Sum(chunks: seq<nat>): nat {
    if chunks == [] then 0 else chunks[0] + Sum(chunks[1..])
  }

  /** The chunk buffer only ever holds non-empty chunks. */
  predicate Wellformed(m: Recorder) {
    forall i :: 0 <= i < |m.chunks| ==> m.chunks[i] > 0
  }

  /** A buffer of non-empty chunks makes a non-empty blob. */
  lemma {:induction false} PositiveSum(chunks: seq<nat>)
    requires |chunks| > 0 && forall i :: 0 <= i < |chunks| ==> chunks[i] > 0
    ensures Sum(chunks) > 0
  {
    assert chunks[0] > 0;
  }

  /** The outcome of `createFilePreviews` for the one recording: a record
      with its server id, an empty array, or a rejected call. */
  datatype Registration = Registered(id: FileId) | NothingReturned | RegistrationFailed

  datatype Event =
    | Toggle
      /** `getUserMedia` or `new MediaRecorder` threw. */
    | MicDenied
      /** The stream was granted: a recorder is created and started. */
    | MicReady(deviceMime: string)
      /** `onstart`. */
    | Started
      /** `ondataavailable` with the chunk's size. */
    | Data(size: nat)
      /** `onstop`, with the outcomes of the calls it awaits: what
          `createFilePreviews` gave, the object URL, the clock, and the
          storage id once both the upload and `updateFile` succeeded (`None`
          when either threw). */
    | Stopped(created: Registration, url: string, now: nat, upload: Option<StorageId>)
      /** `onerror`. */
    | Failed
      /** The component unmounts. */
    | Unmount

  /** What a step does besides changing state: an error toast, a call to the
      recorder's `stop()`, a preview handed to the composer, a finished upload
      reported to it, and whether the microphone stream was released. */
  datatype Effects = Effects(
    error: Option<string>, stopDevice: bool, recorded: Option<Preview>,
    uploaded: Option<(FileId, StorageId)>, streamReleased: bool)

  const Quiet := Effects(None, false, None, None, false)

  /** `stopRecording`: only with a recorder and while loading or recording;
      a capturing recorder is told to stop (its `onstop` finishes the job),
      otherwise the status drops straight to idle. */
  function StopRecording(m: Recorder): (r: (Recorder, Effects))
    ensures !(m.device.Some? && (m.status == Recording || m.status == Loading)) ==> r == (m, Quiet)
    ensures m.device.Some? && (m.status == Recording || m.status == Loading) ==>
      if m.device.value.state == Capturing
      then r.1.stopDevice && r.0.status == m.status && r.0.device == Some(m.device.value.(state := Inactive))
      else !r.1.stopDevice && r.0.status == Idle
    ensures r.0.chunks == m.chunks
  {
    if m.device.Some? && (m.status == Recording || m.status == Loading) then
      if m.device.value.state == Capturing then
        (m.(device := Some(m.device.value.(state := Inactive))), Quiet.(stopDevice := true))
      else (m.(status := Idle), Quiet)
    else (m, Quiet)
  }

  /** `onstop`: no chunks or an empty blob return to idle with nothing made;
      otherwise the recording becomes a preview, is uploaded, the stream is
      released and the status returns to idle. When `createFilePreviews`
      yields nothing the handler returns early with a toast, and when it
      rejects the handler throws without one; either way the status stays
      as it was and the stream stays open. */
  function OnStop(m: Recorder, device: Device, created: Registration, url: string, now: nat,
                  upload: Option<StorageId>): (r: (Recorder, Effects))
    ensures r.0.chunks == m.chunks && r.0.device == m.device
    ensures |m.chunks| == 0 ==> r == (m.(status := Idle), Quiet)
    ensures |m.chunks| > 0 && Sum(m.chunks) == 0 ==> r == (m.(status := Idle), Quiet)
    ensures r.1.recorded.Some? <==> Sum(m.chunks) > 0 && created.Registered?
    ensures r.1.recorded.Some? ==>
      && r.1.recorded.value.id == created.id
      && r.1.recorded.value.file.contentType == EffectiveMime(device.mimeType)
      && r.1.recorded.value.file.size == Sum(m.chunks)
      && r.1.recorded.value.storageId == None
      && r.1.recorded.value.file.name == RecordingName(now, EffectiveMime(device.mimeType))
      && r.1.recorded.value.url == url
    ensures r.1.uploaded.Some? <==> r.1.recorded.Some? && upload.Some?
    ensures r.1.uploaded.Some? ==> r.1.uploaded.value == (created.id, upload.value)
    ensures r.1.streamReleased <==> r.1.recorded.Some?
    ensures r.1.recorded.Some? ==> r.0.status == Idle
    ensures r.1.recorded.Some? ==> r.1.error == if upload.None? then Some("Failed to upload audio file") else None
    ensures Sum(m.chunks) > 0 && created.NothingReturned? ==>
      r == (m, Quiet.(error := Some("Failed to create file preview")))
    ensures Sum(m.chunks) > 0 && created.RegistrationFailed? ==> r == (m, Quiet)
  {
    if |m.chunks| == 0 then (m.(status := Idle), Quiet)
    else
      var mime := EffectiveMime(device.mimeType);
      var size := Sum(m.chunks);
      if size == 0 then (m.(status := Idle), Quiet)
      else
        match created
        case NothingReturned => (m, Quiet.(error := Some("Failed to create file preview")))
        case RegistrationFailed => (m, Quiet)
        case Registered(id) =>
          var preview := Preview(id, FileInfo(RecordingName(now, mime), mime, size), url, None);
          var fx := Effects(
            if upload.None? then Some("Failed to upload audio file") else None,
            false, Some(preview),
            if upload.Some? then Some((id, upload.value)) else None,
            true);
          (m.(status := Idle), fx)
  }

  /** One event. */
  function Step(m: Recorder, e: Event): (r: (Recorder, Effects))
    ensures e == Toggle && m.status != Recording ==> r == (m.(status := Loading), Quiet)
    ensures e == Toggle && m.status == Recording ==> r == StopRecording(m)
    ensures e == Started ==> r == (m.(status := Recording), Quiet)
    ensures e == MicDenied ==> r == (m.(status := Idle), Quiet.(error := Some("Failed to access microphone")))
    ensures e == Failed ==> r == (m.(status := Idle), Quiet.(error := Some("Recording failed")))
    ensures e.MicReady? ==> r == (m.(chunks := [], device := Some(Device(Capturing, e.deviceMime))), Quiet)
    ensures e.Data? ==> r.1 == Quiet && r.0.(chunks := m.chunks) == m
    ensures e.Data? ==> r.0.chunks == if e.size > 0 then m.chunks + [e.size] else m.chunks
    ensures e.Stopped? ==>
      r == if m.device.Some? then OnStop(m, m.device.value, e.created, e.url, e.now, e.upload) else (m, Quiet)
    ensures e == Unmount ==> r.0.status == m.status && r.0.chunks == m.chunks && r.1.error.None?
    ensures e == Unmount ==> (r.1.stopDevice <==> m.device.Some? && m.device.value.state == Capturing)
    ensures e == Unmount && r.1.stopDevice ==>
      r == (m.(device := Some(m.device.value.(state := Inactive))), Quiet.(stopDevice := true))
    ensures e == Unmount && !r.1.stopDevice ==> r == (m, Quiet)
  {
    match e
    case Toggle =>
      if m.status == Recording then StopRecording(m) else (m.(status := Loading), Quiet)
    case MicDenied => (m.(status := Idle), Quiet.(error := Some("Failed to access microphone")))
    case MicReady(mime) => (m.(device := Some(Device(Capturing, mime)), chunks := []), Quiet)
    case Started => (m.(status := Recording), Quiet)
    case Data(size) => (if size > 0 then m.(chunks := m.chunks + [size]) else m, Quiet)
    case Stopped(created, url, now, upload) =>
      if m.device.Some? then OnStop(m, m.device.value, created, url, now, upload) else (m, Quiet)
    case Failed => (m.(status := Idle), Quiet.(error := Some("Recording failed")))
    case Unmount =>
      if m.device.Some? && m.device.value.state == Capturing
      then (m.(device := Some(m.device.value.(state := Inactive))), Quiet.(stopDevice := true))
      else (m, Quiet)
  }

  /** Every event keeps the buffer free of empty chunks. */
  lemma StepKeepsWellformed(m: Recorder, e: Event)
    requires Wellformed(m)
    ensures Wellformed(Step(m, e).0)
  {
  }

  /** Replays a sequence of events from a state. */
  function Run(m: Recorder, es: seq<Event>): Recorder
    decreases |es|
  {
    if es == [] then m else Run(Step(m, es[0]).0, es[1..])
  }

  lemma {:induction false} RunKeepsWellformed(m: Recorder, es: seq<Event>)
    requires Wellformed(m)
    ensures Wellformed(Run(m, es))
    decreases |es|
  {
    if es != [] {
      StepKeepsWellformed(m, es[0]);
      RunKeepsWellformed(Step(m, es[0]).0, es[1..]);
    }
  }

  /** From any reachable state, a stop with captured chunks and a registered
      preview always delivers that preview: the empty-blob branch of `onstop`
      is never taken. */
  lemma CapturedAudioIsDelivered(es: seq<Event>, created: FileId, url: string, now: nat, upload: Option<StorageId>)
    requires var m := Run(Initial, es); m.device.Some? && |m.chunks| > 0
    ensures var m := Run(Initial, es);
      var r := Step(m, Stopped(Registered(created), url, now, upload));
      r.1.recorded.Some? && r.1.recorded.value.id == created && r.0.status == Idle
  {
    var m := Run(Initial, es);
    RunKeepsWellformed(Initial, es);
    PositiveSum(m.chunks);
  }

  /** The composer's two callbacks: the recorded preview is appended to the
      strip, and a finished upload marks it stored. */
  function Deliver(ps: seq<Preview>, fx: Effects): (r: seq<Preview>)
    ensures fx.recorded.None? && fx.uploaded.None? ==> r == ps
  {
    var appended := if fx.recorded.Some? then ps + [fx.recorded.value] else ps;
    if fx.uploaded.Some? then MarkStored(appended, fx.uploaded.value.0, fx.uploaded.value.1) else appended
  }

  /** A recording whose upload succeeded ends the strip, stored, with the
      entries before it untouched when its id is new. */
  lemma RecordingEntersDraft(ps: seq<Preview>, m: Recorder, device: Device, created: FileId, url: string,
                             now: nat, sid: StorageId)
    requires Sum(m.chunks) > 0 && !HasId(ps, created)
    ensures var fx := OnStop(m, device, Registered(created), url, now, Some(sid)).1;
      var r := Deliver(ps, fx);
      |r| == |ps| + 1 && r[..|ps|] == ps && r[|ps|] == fx.recorded.value.(storageId := Some(sid))
  {
    var fx := OnStop(m, device, Registered(created), url, now, Some(sid)).1;
    var appended := ps + [fx.recorded.value];
    var r := MarkStored(appended, created, sid);
    assert forall i :: 0 <= i < |ps| ==> appended[i] == ps[i] && ps[i].id != created;
    assert r[..|ps|] == ps;
  }
}

=== FILE: channels.dfy ===
/** The backend's channel operations over an in-memory store: listing a
    team's channels in the user's order with unread counts, creating,
    renaming and archiving a channel, muting, marking as read, and saving a
    custom order.

    Id normalisation and the team/channel permission checks are oracles:
    each operation receives whether the id was well-formed and the calling
    user (None when the check throws). A mutation that throws is rolled back
    as a whole, so an error result carries no store. */
module Channels {
  import opened Common
  import opened Text

  type Id = nat

  datatype Channel = Channel(
    id: Id, teamId: Id, name: string, createdBy: Id, creationTime: int, archivedTime: Option<string>)

  datatype ChannelOrder = ChannelOrder(channelId: Id, userId: Id, order: int)

  datatype Activity = Activity(
    channelId: Id, userId: Id, isFavourite: bool, isMuted: bool, lastReadMessageTime: Option<int>)

  datatype Message = Message(channelId: Id, authorId: Id, creationTime: int)

  datatype UserTeam = UserTeam(userId: Id, teamId: Id)

  /** Each table in insertion order, which is also `_creationTime` order. */
  datatype Store = Store(
    channels: seq<Channel>, orders: seq<ChannelOrder>, activities: seq<Activity>,
    messages: seq<Message>, userTeams: seq<UserTeam>)

  datatype Error =
    | InvalidTeamId      // "Invalid team ID"
    | InvalidChannelId   // "Invalid channel ID"
    | Forbidden          // the permission check threw
    | NameRequired       // "Channel name is required"
    | NameTaken          // "Channel already exists with this name"
    | ChannelNotFound    // "Channel not found"
    | NotInTeam          // "You are not the author of this channel"

  // ---------------------------------------------------------------------------
  // Lookups

  /** Index of the channel with that id. */
  function FindChannel(chs: seq<Channel>, id: Id): (r: Option<nat>)
    ensures r.Some? ==> r.value < |chs| && chs[r.value].id == id
    ensures r.None? ==> forall i :: 0 <= i < |chs| ==> chs[i].id != id
  {
    if chs == [] then None
    else if chs[0].id == id then Some(0)
    else match FindChannel(chs[1..], id)
      case None => None
      case Some(k) => Some(k + 1)
  }

  /** `.first()` over a user's activity records for a channel. */
  function FindActivity(acts: seq<Activity>, channelId: Id, userId: Id): (r: Option<nat>)
    ensures r.Some? ==> r.value < |acts| && acts[r.value].channelId == channelId && acts[r.value].userId == userId
    ensures r.Some? ==> forall i :: 0 <= i < r.value ==> !(acts[i].channelId == channelId && acts[i].userId == userId)
    ensures r.None? ==> forall i :: 0 <= i < |acts| ==> !(acts[i].channelId == channelId && acts[i].userId == userId)
  {
    if acts == [] then None
    else if acts[0].channelId == channelId && acts[0].userId == userId then Some(0)
    else match FindActivity(acts[1..], channelId, userId)
      case None => None
      case Some(k) => Some(k + 1)
  }

  /** `.first()` over a user's order records for a channel. */
  function FindOrder(os: seq<ChannelOrder>, channelId: Id, userId: Id): (r: Option<nat>)
    ensures r.Some? ==> r.value < |os| && os[r.value].channelId == channelId && os[r.value].userId == userId
    ensures r.Some? ==> forall i :: 0 <= i < r.value ==> !(os[i].channelId == channelId && os[i].userId == userId)
    ensures r.None? ==> forall i :: 0 <= i < |os| ==> !(os[i].channelId == channelId && os[i].userId == userId)
  {
    if os == [] then None
    else if os[0].channelId == channelId && os[0].userId == userId then Some(0)
    else match FindOrder(os[1..], channelId, userId)
      case None => None
      case Some(k) => Some(k + 1)
  }

  /** The user's order for a channel as the map built from their records
      yields it: a map built from pairs keeps the last entry for a key. */
  function LastOrder(os: seq<ChannelOrder>, userId: Id, channelId: Id): (r: Option<int>)
    ensures r.None? <==> forall i :: 0 <= i < |os| ==> !(os[i].channelId == channelId && os[i].userId == userId)
    ensures r.Some? ==> exists i :: 0 <= i < |os| && os[i].channelId == channelId && os[i].userId == userId && os[i].order == r.value
  {
    if os == [] then None
    else
      var last := os[|os| - 1];
      if last.channelId == channelId && last.userId == userId then Some(last.order)
      else
        var r := LastOrder(os[..|os| - 1], userId, channelId);
        assert forall i :: 0 <= i < |os| - 1 ==> os[..|os| - 1][i] == os[i];
        r
  }

  /** The lookup takes the last record for the pair: every later record is
      for another pair. */
  lemma {:induction false} LastOrderIsLast(os: seq<ChannelOrder>, userId: Id, channelId: Id, k: nat)
    requires k < |os| && os[k].channelId == channelId && os[k].userId == userId
    requires forall j :: k < j < |os| ==> !(os[j].channelId == channelId && os[j].userId == userId)
    ensures LastOrder(os, userId, channelId) == Some(os[k].order)
    decreases |os|
  {
    var n := |os| - 1;
    if k < n {
      assert !(os[n].channelId == channelId && os[n].userId == userId);
      LastOrderIsLast(os[..n], userId, channelId, k);
    }
  }

  /** No user has two order records for the same channel. */
  predicate UniqueOrders(os: seq<ChannelOrder>) {
    forall i, j :: 0 <= i < j < |os| ==> !(os[i].channelId == os[j].channelId && os[i].userId == os[j].userId)
  }

  /** With one record per pair, the map lookup is that record's order. */
  lemma LastOrderOfUnique(os: seq<ChannelOrder>, k: nat)
    requires UniqueOrders(os) && k < |os|
    ensures LastOrder(os, os[k].userId, os[k].channelId) == Some(os[k].order)
  {
  }

  // ---------------------------------------------------------------------------
  // list

  /** The team's channels without `archivedTime`, in store order. */
  function Live(chs: seq<Channel>, teamId: Id): (r: seq<Channel>)
    ensures forall c :: c in r <==> c in chs && c.teamId == teamId && c.archivedTime.None?
    ensures forall c :: multiset(r)[c] == if c.teamId == teamId && c.archivedTime.None? then multiset(chs)[c] else 0
    ensures |r| <= |chs|
  {
    if chs == [] then []
    else
      assert chs == [chs[0]] + chs[1..];
      (if chs[0].teamId == teamId && chs[0].archivedTime.None? then [chs[0]] else []) + Live(chs[1..], teamId)
  }

  /** The sort key: the user's order when there is one, else the creation
      time (`??` keeps an order of 0). */
  function Key(os: seq<ChannelOrder>, userId: Id, c: Channel): int {
    LastOrder(os, userId, c.id).GetOr(c.creationTime)
  }

  predicate SortedBy(s: seq<Channel>, os: seq<ChannelOrder>, userId: Id) {
    forall i, j :: 0 <= i < j < |s| ==> Key(os, userId, s[i]) <= Key(os, userId, s[j])
  }

  /** Inserts `c` after the leading elements whose key is not greater; in a
      sorted list that is where the stable `Array.prototype.sort` places a
      later element. */
  function Insert(c: Channel, s: seq<Channel>, os: seq<ChannelOrder>, userId: Id): (r: seq<Channel>)
    ensures multiset(r) == multiset(s) + multiset{c}
    ensures forall i :: 0 <= i < |r| ==> r[i] == c || r[i] in s
  {
    if s == [] then [c]
    else if Key(os, userId, c) < Key(os, userId, s[0]) then [c] + s
    else
      assert s == [s[0]] + s[1..];
      [s[0]] + Insert(c, s[1..], os, userId)
  }

  /** Inserting into a sorted list keeps it sorted. */
  lemma {:induction false} InsertSorted(c: Channel, s: seq<Channel>, os: seq<ChannelOrder>, userId: Id)
    requires SortedBy(s, os, userId)
    ensures SortedBy(Insert(c, s, os, userId), os, userId)
    decreases |s|
  {
    if s == [] {
    } else if Key(os, userId, c) < Key(os, userId, s[0]) {
      ConsSorted(c, s, os, userId);
    } else {
      var tail := Insert(c, s[1..], os, userId);
      assert SortedBy(s[1..], os, userId);
      InsertSorted(c, s[1..], os, userId);
      forall i | 0 <= i < |tail|
        ensures Key(os, userId, s[0]) <= Key(os, userId, tail[i])
      {
        if tail[i] != c {
          var j :| 0 <= j < |s[1..]| && s[1..][j] == tail[i];
          assert s[1..][j] == s[j + 1];
        }
      }
      ConsSorted(s[0], tail, os, userId);
    }
  }

  /** A key no greater than any in a sorted list can go in front. */
  lemma ConsSorted(x: Channel, t: seq<Channel>, os: seq<ChannelOrder>, userId: Id)
    requires SortedBy(t, os, userId)
    requires forall i :: 0 <= i < |t| ==> Key(os, userId, x) <= Key(os, userId, t[i])
    ensures SortedBy([x] + t, os, userId)
  {
    var r := [x] + t;
    assert forall i :: 1 <= i < |r| ==> r[i] == t[i - 1];
  }

  /** The list sorted by ascending key; ties keep their relative order, as
      the stable `Array.prototype.sort` does. */
  function SortByKey(s: seq<Channel>, os: seq<ChannelOrder>, userId: Id): (r: seq<Channel>)
    ensures SortedBy(r, os, userId)
    ensures multiset(r) == multiset(s)
  {
    if s == [] then []
    else
      var init := s[..|s| - 1];
      assert s == init + [s[|s| - 1]];
      InsertSorted(s[|s| - 1], SortByKey(init, os, userId), os, userId);
      Insert(s[|s| - 1], SortByKey(init, os, userId), os, userId)
  }

  /** JavaScript truthiness of `lastReadMessageTime`: a missing or zero time
      means "never read". */
  function Since(a: Option<Activity>): (r: Option<int>)
    ensures r.None? <==> a.None? || a.value.lastReadMessageTime.None? || a.value.lastReadMessageTime == Some(0)
    ensures r.Some? ==> r == a.value.lastReadMessageTime
  {
    if a.Some? && a.value.lastReadMessageTime.Some? && a.value.lastReadMessageTime.value != 0
    then a.value.lastReadMessageTime else None
  }

  predicate Unread(m: Message, channelId: Id, userId: Id, since: Option<int>) {
    m.channelId == channelId && m.authorId != userId && (since.None? || m.creationTime >= since.value)
  }

  function CountUnread(ms: seq<Message>, channelId: Id, userId: Id, since: Option<int>): (r: nat)
    ensures r <= |ms|
    ensures r == 0 <==> forall i :: 0 <= i < |ms| ==> !Unread(ms[i], channelId, userId, since)
  {
    if ms == [] then 0
    else
      var rest := CountUnread(ms[1..], channelId, userId, since);
      assert forall i :: 1 <= i < |ms| ==> ms[i] == ms[1..][i - 1];
      (if Unread(ms[0], channelId, userId, since) then 1 else 0) + rest
  }

  /** Counting distributes over concatenation, so the count of a log is the
      sum of one per unread message. */
  lemma {:induction false} CountUnreadAppend(a: seq<Message>, b: seq<Message>, channelId: Id, userId: Id, since: Option<int>)
    ensures CountUnread(a + b, channelId, userId, since)
         == CountUnread(a, channelId, userId, since) + CountUnread(b, channelId, userId, since)
    decreases |a|
  {
    if a == [] {
      assert a + b == b;
    } else {
      assert (a + b)[0] == a[0] && (a + b)[1..] == a[1..] + b;
      CountUnreadAppend(a[1..], b, channelId, userId, since);
    }
  }

  /** One message counts exactly when it is unread. */
  lemma CountUnreadOne(m: Message, channelId: Id, userId: Id, since: Option<int>)
    ensures CountUnread([m], channelId, userId, since) == if Unread(m, channelId, userId, since) then 1 else 0
  {
    assert [m][1..] == [];
  }

  /** A later read mark never counts more messages. */
  lemma {:induction false} CountUnreadMonotone(ms: seq<Message>, channelId: Id, userId: Id, t: int, u: int)
    requires t <= u
    ensures CountUnread(ms, channelId, userId, Some(u)) <= CountUnread(ms, channelId, userId, Some(t))
    ensures CountUnread(ms, channelId, userId, Some(t)) <= CountUnread(ms, channelId, userId, None)
  {
    if ms != [] {
      CountUnreadMonotone(ms[1..], channelId, userId, t, u);
    }
  }

  datatype ChannelView = ChannelView(channel: Channel, isMuted: bool, unreadCount: nat)

  function ActivityOf(s: Store, channelId: Id, userId: Id): Option<Activity> {
    match FindActivity(s.activities, channelId, userId)
    case None => None
    case Some(k) => Some(s.activities[k])
  }

  /** One row of `list`: muted exactly when the user's first activity record
      says so, and `take(100)` caps the count of messages by others at or
      after the read mark (all of them without a mark). */
  function View(s: Store, c: Channel, userId: Id): (r: ChannelView)
    ensures r.channel == c
    ensures r.unreadCount <= 100
    ensures r.isMuted <==> ActivityOf(s, c.id, userId).Some? && ActivityOf(s, c.id, userId).value.isMuted
    ensures var n := CountUnread(s.messages, c.id, userId, Since(ActivityOf(s, c.id, userId)));
      r.unreadCount == if n < 100 then n else 100
  {
    var a := ActivityOf(s, c.id, userId);
    var n := CountUnread(s.messages, c.id, userId, Since(a));
    ChannelView(c, a.Some? && a.value.isMuted, if n < 100 then n else 100)
  }

  /** Without an activity record every message by someone else counts, up
      to 100, and the channel is not muted. */
  lemma ViewWithoutRecord(s: Store, c: Channel, userId: Id)
    requires FindActivity(s.activities, c.id, userId).None?
    ensures !View(s, c, userId).isMuted
    ensures var n := CountUnread(s.messages, c.id, userId, None);
      View(s, c, userId).unreadCount == if n < 100 then n else 100
  {
  }

  /** One view per channel, in the same order. */
  function Views(s: Store, cs: seq<Channel>, userId: Id): (r: seq<ChannelView>)
    ensures |r| == |cs|
    ensures forall i :: 0 <= i < |cs| ==> r[i] == View(s, cs[i], userId)
    ensures forall c :: (exists i :: 0 <= i < |r| && r[i].channel == c) <==> c in cs
  {
    var r := seq(|cs|, i requires 0 <= i < |cs| => View(s, cs[i], userId));
    assert forall i :: 0 <= i < |cs| ==> r[i].channel == cs[i];
    r
  }

  lemma SortedCoversLive(chs: seq<Channel>, teamId: Id, os: seq<ChannelOrder>, userId: Id)
    ensures forall c :: c in SortByKey(Live(chs, teamId), os, userId) <==> c in chs && c.teamId == teamId && c.archivedTime.None?
  {
    var live := Live(chs, teamId);
    var sorted := SortByKey(live, os, userId);
    forall c ensures c in sorted <==> c in live {
      assert c in sorted <==> c in multiset(sorted);
      assert c in live <==> c in multiset(live);
    }
  }

  /** `list`: the team's live channels, ordered by the caller's key, each
      with its mute flag and capped unread count. */
  function List(s: Store, teamIdValid: bool, caller: Option<Id>, teamId: Id): (r: Result<seq<ChannelView>, Error>)
    ensures !teamIdValid ==> r == Err(InvalidTeamId)
    ensures teamIdValid && caller.None? ==> r == Err(Forbidden)
    ensures r.Ok? <==> teamIdValid && caller.Some?
    ensures r.Ok? ==>
      && (forall i, j :: 0 <= i < j < |r.value| ==>
            Key(s.orders, caller.value, r.value[i].channel) <= Key(s.orders, caller.value, r.value[j].channel))
      && (forall c :: (exists i :: 0 <= i < |r.value| && r.value[i].channel == c) <==>
            c in s.channels && c.teamId == teamId && c.archivedTime.None?)
      && (forall i :: 0 <= i < |r.value| ==> r.value[i] == View(s, r.value[i].channel, caller.value))
      && |r.value| == |Live(s.channels, teamId)|
  {
    if !teamIdValid then Err(InvalidTeamId)
    else if caller.None? then Err(Forbidden)
    else
      var userId := caller.value;
      var sorted := SortByKey(Live(s.channels, teamId), s.orders, userId);
      var views := Views(s, sorted, userId);
      SortedCoversLive(s.channels, teamId, s.orders, userId);
      Ok(views)
  }

  // ---------------------------------------------------------------------------
  // create

  /** The largest order among the user's records, or -1 when they have
      none. */
  function MaxOrder(os: seq<ChannelOrder>, userId: Id): (r: int)
    ensures r >= -1
    ensures forall i :: 0 <= i < |os| && os[i].userId == userId ==> os[i].order <= r
    ensures r == -1 || exists i :: 0 <= i < |os| && os[i].userId == userId && os[i].order == r
  {
    if os == [] then -1
    else
      var rest := MaxOrder(os[1..], userId);
      assert forall i :: 1 <= i < |os| ==> os[i] == os[1..][i - 1];
      if os[0].userId == userId && os[0].order > rest then os[0].order else rest
  }

  /** Whether the team already has a channel, archived or not, with exactly
      that name (the `by_team_name` index lookup). */
  predicate NameInTeam(chs: seq<Channel>, teamId: Id, name: string) {
    exists i :: 0 <= i < |chs| && chs[i].teamId == teamId && chs[i].name == name
  }

  /** The id a fresh insert receives is unused in the channel and order tables. */
  predicate FreshChannelId(s: Store, id: Id) {
    (forall i :: 0 <= i < |s.channels| ==> s.channels[i].id != id)
    && (forall i :: 0 <= i < |s.orders| ==> s.orders[i].channelId != id)
  }

  datatype Created = Created(store: Store, channelId: Id)

  /** The checks of `create`, in the order it makes them: a blank name is
      refused before the team id is even read, and a name is taken when the
      team has a channel, archived or not, with the normalised name. */
  function Refusal(s: Store, name: string, teamIdValid: bool, caller: Option<Id>, teamId: Id): (r: Option<Error>)
    ensures Blank(name) ==> r == Some(NameRequired)
    ensures !Blank(name) && !teamIdValid ==> r == Some(InvalidTeamId)
    ensures !Blank(name) && teamIdValid && caller.None? ==> r == Some(Forbidden)
    ensures r == Some(NameTaken) <==>
      !Blank(name) && teamIdValid && caller.Some? && NameInTeam(s.channels, teamId, Normalize(name))
    ensures r.None? <==>
      !Blank(name) && teamIdValid && caller.Some? && !NameInTeam(s.channels, teamId, Normalize(name))
  {
    TrimEmptyIffBlank(name);
    if Trim(name) == [] then Some(NameRequired)
    else if !teamIdValid then Some(InvalidTeamId)
    else if caller.None? then Some(Forbidden)
    else if NameInTeam(s.channels, teamId, Normalize(name)) then Some(NameTaken)
    else None
  }

  /** `create`: refuses as `Refusal` says; otherwise stores the channel under
      its lower-cased, trimmed name and gives it the creator's next order. */
  function Create(s: Store, name: string, teamIdValid: bool, caller: Option<Id>, teamId: Id,
                  newId: Id, now: int): (r: Result<Created, Error>)
    requires FreshChannelId(s, newId)
    ensures r.Err? <==> Refusal(s, name, teamIdValid, caller, teamId).Some?
    ensures r.Err? ==> r.error == Refusal(s, name, teamIdValid, caller, teamId).value
    ensures r.Ok? ==> caller.Some? && r.value == AddChannel(s, Normalize(name), teamId, caller.value, newId, now)
  {
    match Refusal(s, name, teamIdValid, caller, teamId)
    case Some(e) => Err(e)
    case None => Ok(AddChannel(s, Normalize(name), teamId, caller.value, newId, now))
  }

  /** The two inserts of a successful `create`: the channel, then the
      creator's order record one past their largest order. */
  function AddChannel(s: Store, n: string, teamId: Id, userId: Id, newId: Id, now: int): (r: Created)
    ensures r.channelId == newId
    ensures r.store.channels == s.channels + [Channel(newId, teamId, n, userId, now, None)]
    ensures r.store.orders == s.orders + [ChannelOrder(newId, userId, MaxOrder(s.orders, userId) + 1)]
    ensures r.store.(channels := s.channels, orders := s.orders) == s
  {
    Created(s.(channels := s.channels + [Channel(newId, teamId, n, userId, now, None)],
               orders := s.orders + [ChannelOrder(newId, userId, MaxOrder(s.orders, userId) + 1)]), newId)
  }

  /** The new channel's position: 0 for a user without orders, otherwise
      after every order the user already has. */
  lemma CreateOrdersLast(s: Store, name: string, teamId: Id, userId: Id, newId: Id, now: int)
    requires FreshChannelId(s, newId)
    requires Create(s, name, true, Some(userId), teamId, newId, now).Ok?
    ensures var o := Create(s, name, true, Some(userId), teamId, newId, now).value.store.orders[|s.orders|];
      && o.channelId == newId && o.userId == userId
      && (forall i :: 0 <= i < |s.orders| && s.orders[i].userId == userId ==> s.orders[i].order < o.order)
      && ((forall i :: 0 <= i < |s.orders| ==> s.orders[i].userId != userId) ==> o.order == 0)
  {
  }

  /** No team has two channels with the same name. */
  predicate UniqueNames(chs: seq<Channel>) {
    forall i, j :: 0 <= i < j < |chs| && chs[i].teamId == chs[j].teamId ==> chs[i].name != chs[j].name
  }

  /** `create` keeps names unique within a team and keeps one order record
      per (user, channel). */
  lemma CreateKeepsInvariants(s: Store, name: string, teamIdValid: bool, caller: Option<Id>, teamId: Id, newId: Id, now: int)
    requires FreshChannelId(s, newId)
    requires UniqueNames(s.channels) && UniqueOrders(s.orders)
    ensures var r := Create(s, name, teamIdValid, caller, teamId, newId, now);
      r.Ok? ==> UniqueNames(r.value.store.channels) && UniqueOrders(r.value.store.orders)
  {
    var r := Create(s, name, teamIdValid, caller, teamId, newId, now);
    if r.Ok? {
      assert Refusal(s, name, teamIdValid, caller, teamId).None?;
      AddChannelKeepsInvariants(s, Normalize(name), teamId, caller.value, newId, now);
    }
  }

  lemma AddChannelKeepsInvariants(s: Store, n: string, teamId: Id, userId: Id, newId: Id, now: int)
    requires FreshChannelId(s, newId) && !NameInTeam(s.channels, teamId, n)
    requires UniqueNames(s.channels) && UniqueOrders(s.orders)
    ensures var a := AddChannel(s, n, teamId, userId, newId, now).store;
      UniqueNames(a.channels) && UniqueOrders(a.orders)
  {
    AppendKeepsUniqueNames(s.channels, Channel(newId, teamId, n, userId, now, None));
    AppendKeepsUniqueOrders(s.orders, ChannelOrder(newId, userId, MaxOrder(s.orders, userId) + 1));
  }

  lemma AppendKeepsUniqueNames(chs: seq<Channel>, c: Channel)
    requires UniqueNames(chs) && !NameInTeam(chs, c.teamId, c.name)
    ensures UniqueNames(chs + [c])
  {
    var r := chs + [c];
    assert forall i :: 0 <= i < |chs| ==> r[i] == chs[i];
  }

  lemma AppendKeepsUniqueOrders(os: seq<ChannelOrder>, o: ChannelOrder)
    requires UniqueOrders(os) && forall i :: 0 <= i < |os| ==> os[i].channelId != o.channelId
    ensures UniqueOrders(os + [o])
  {
    var r := os + [o];
    assert forall i :: 0 <= i < |os| ==> r[i] == os[i];
  }

  // ---------------------------------------------------------------------------
  // update

  /** `update`: an empty string counts as absent for both fields, and an
      archive time overrides any new name with the old name plus the
      formatted time; `format` stands for `dayjs(t).format()`. */
  function Update(s: Store, channelIdValid: bool, allowed: bool, channelId: Id,
                  name: Option<string>, archivedTime: Option<string>, format: string -> string): (r: Result<Store, Error>)
    ensures !channelIdValid ==> r == Err(InvalidChannelId)
    ensures channelIdValid && !allowed ==> r == Err(Forbidden)
    ensures r == Err(ChannelNotFound) <==> channelIdValid && allowed && FindChannel(s.channels, channelId).None?
    ensures r.Ok? <==> channelIdValid && allowed && FindChannel(s.channels, channelId).Some?
    ensures r.Ok? ==>
      var k := FindChannel(s.channels, channelId).value;
      var old_ := s.channels[k];
      var archiving := archivedTime.Some? && archivedTime.value != [];
      && |r.value.channels| == |s.channels|
      && (forall i :: 0 <= i < |s.channels| && i != k ==> r.value.channels[i] == s.channels[i])
      && r.value.channels[k].archivedTime == (if archiving then archivedTime else old_.archivedTime)
      && r.value.channels[k].name ==
           (if archiving then old_.name + " (archived - " + format(archivedTime.value) + ")"
            else if name.Some? && name.value != [] then name.value
            else old_.name)
      && r.value.channels[k].(name := old_.name, archivedTime := old_.archivedTime) == old_
      && r.value.(channels := s.channels) == s
  {
    if !channelIdValid then Err(InvalidChannelId)
    else if !allowed then Err(Forbidden)
    else match FindChannel(s.channels, channelId)
      case None => Err(ChannelNotFound)
      case Some(k) =>
        var c := s.channels[k];
        var c1 := if name.Some? && name.value != [] then c.(name := name.value) else c;
        var c2 := if archivedTime.Some? && archivedTime.value != []
          then c1.(archivedTime := archivedTime, name := c.name + " (archived - " + format(archivedTime.value) + ")")
          else c1;
        Ok(s.(channels := s.channels[k := c2]))
  }

  /** Once archived, a channel no longer appears in `list`. */
  lemma ArchivedLeavesList(s: Store, channelId: Id, name: Option<string>, t: string, format: string -> string,
                           caller: Id, teamId: Id)
    requires t != []
    requires forall i, j :: 0 <= i < j < |s.channels| ==> s.channels[i].id != s.channels[j].id
    requires Update(s, true, true, channelId, name, Some(t), format).Ok?
    ensures var s1 := Update(s, true, true, channelId, name, Some(t), format).value;
      forall i :: 0 <= i < |List(s1, true, Some(caller), teamId).value| ==>
        List(s1, true, Some(caller), teamId).value[i].channel.id != channelId
  {
    var s1 := Update(s, true, true, channelId, name, Some(t), format).value;
    var l := List(s1, true, Some(caller), teamId).value;
    forall i | 0 <= i < |l|
      ensures l[i].channel.id != channelId
    {
      ListedIsLive(s1, caller, teamId, i);
      ArchivedNotLive(s, channelId, name, t, format, l[i].channel);
    }
  }

  /** After archiving, a channel of the store that is not archived has
      another id. */
  lemma ArchivedNotLive(s: Store, channelId: Id, name: Option<string>, t: string, format: string -> string, c: Channel)
    requires t != []
    requires forall i, j :: 0 <= i < j < |s.channels| ==> s.channels[i].id != s.channels[j].id
    requires Update(s, true, true, channelId, name, Some(t), format).Ok?
    requires c in Update(s, true, true, channelId, name, Some(t), format).value.channels && c.archivedTime.None?
    ensures c.id != channelId
  {
    var s1 := Update(s, true, true, channelId, name, Some(t), format).value;
    var k := FindChannel(s.channels, channelId).value;
    var j :| 0 <= j < |s1.channels| && s1.channels[j] == c;
    if j != k {
      assert s.channels[j] == c;
    }
  }

  lemma ListedIsLive(s: Store, caller: Id, teamId: Id, i: nat)
    requires i < |List(s, true, Some(caller), teamId).value|
    ensures var c := List(s, true, Some(caller), teamId).value[i].channel;
      c in s.channels && c.teamId == teamId && c.archivedTime.None?
  {
  }

  // ---------------------------------------------------------------------------
  // toggleMute and markAsRead

  /** `toggleMute`: without a record, insert one that is muted (and marks
      the channel read now); otherwise flip `isMuted` on the first one. */
  function ToggleMute(s: Store, channelIdValid: bool, caller: Option<Id>, channelId: Id, now: int): (r: Result<Store, Error>)
    ensures !channelIdValid ==> r == Err(InvalidChannelId)
    ensures channelIdValid && caller.None? ==> r == Err(Forbidden)
    ensures r == Err(ChannelNotFound) <==> channelIdValid && caller.Some? && FindChannel(s.channels, channelId).None?
    ensures r.Ok? <==> channelIdValid && caller.Some? && FindChannel(s.channels, channelId).Some?
    ensures r.Ok? ==> r.value.(activities := s.activities) == s
    ensures r.Ok? ==>
      match FindActivity(s.activities, channelId, caller.value)
      case None => r.value.activities == s.activities + [Activity(channelId, caller.value, false, true, Some(now))]
      case Some(k) =>
        r.value.activities == s.activities[k := s.activities[k].(isMuted := !s.activities[k].isMuted)]
  {
    if !channelIdValid then Err(InvalidChannelId)
    else if caller.None? then Err(Forbidden)
    else if FindChannel(s.channels, channelId).None? then Err(ChannelNotFound)
    else
      var userId := caller.value;
      match FindActivity(s.activities, channelId, userId)
      case None => Ok(s.(activities := s.activities + [Activity(channelId, userId, false, true, Some(now))]))
      case Some(k) =>
        Ok(s.(activities := s.activities[k := s.activities[k].(isMuted := !s.activities[k].isMuted)]))
  }

  /** After one toggle the channel is muted for the caller exactly when it
      was not; two toggles restore a record that already existed. */
  lemma ToggleMuteFlips(s: Store, caller: Id, channelId: Id, now: int, later: int)
    requires FindChannel(s.channels, channelId).Some?
    ensures var s1 := ToggleMute(s, true, Some(caller), channelId, now).value;
      && ActivityOf(s1, channelId, caller).Some?
      && ActivityOf(s1, channelId, caller).value.isMuted ==
           !(ActivityOf(s, channelId, caller).Some? && ActivityOf(s, channelId, caller).value.isMuted)
    ensures ActivityOf(s, channelId, caller).Some? ==>
      var s1 := ToggleMute(s, true, Some(caller), channelId, now).value;
      ToggleMute(s1, true, Some(caller), channelId, later) == Ok(s)
  {
    var s1 := ToggleMute(s, true, Some(caller), channelId, now).value;
    match FindActivity(s.activities, channelId, caller)
    case None =>
      var n := |s.activities|;
      assert s1.activities[n] == Activity(channelId, caller, false, true, Some(now));
      assert FindActivity(s1.activities, channelId, caller) == Some(n) by {
        FindActivityAfterAppend(s.activities, s1.activities[n], channelId, caller);
      }
    case Some(k) =>
      FindActivitySameKeys(s.activities, s1.activities, channelId, caller);
      assert s1.activities[k := s1.activities[k].(isMuted := !s1.activities[k].isMuted)] == s.activities;
  }

  lemma FindActivityAfterAppend(acts: seq<Activity>, a: Activity, channelId: Id, userId: Id)
    requires FindActivity(acts, channelId, userId).None?
    requires a.channelId == channelId && a.userId == userId
    ensures FindActivity(acts + [a], channelId, userId) == Some(|acts|)
  {
    assert forall i :: 0 <= i < |acts| ==> (acts + [a])[i] == acts[i];
    assert (acts + [a])[|acts|] == a;
  }

  /** Changing fields other than channel and user keeps `.first()`. */
  lemma FindActivitySameKeys(a: seq<Activity>, b: seq<Activity>, channelId: Id, userId: Id)
    requires |a| == |b|
    requires forall i :: 0 <= i < |a| ==> a[i].channelId == b[i].channelId && a[i].userId == b[i].userId
    ensures FindActivity(a, channelId, userId) == FindActivity(b, channelId, userId)
  {
    var ra, rb := FindActivity(a, channelId, userId), FindActivity(b, channelId, userId);
    assert ra.Some? <==> rb.Some?;
  }

  /** `markAsRead`: set the caller's read time to `now`, inserting a fresh,
      unmuted record only when the caller has none for this channel. */
  function MarkAsRead(s: Store, channelIdValid: bool, caller: Option<Id>, channelId: Id, now: int): (r: Result<Store, Error>)
    ensures !channelIdValid ==> r == Err(InvalidChannelId)
    ensures channelIdValid && caller.None? ==> r == Err(Forbidden)
    ensures r.Ok? <==> channelIdValid && caller.Some?
    ensures r.Ok? ==> r.value.(activities := s.activities) == s
    ensures r.Ok? ==>
      match FindActivity(s.activities, channelId, caller.value)
      case None => r.value.activities == s.activities + [Activity(channelId, caller.value, false, false, Some(now))]
      case Some(k) => r.value.activities == s.activities[k := s.activities[k].(lastReadMessageTime := Some(now))]
  {
    if !channelIdValid then Err(InvalidChannelId)
    else if caller.None? then Err(Forbidden)
    else
      var userId := caller.value;
      match FindActivity(s.activities, channelId, userId)
      case None => Ok(s.(activities := s.activities + [Activity(channelId, userId, false, false, Some(now))]))
      case Some(k) => Ok(s.(activities := s.activities[k := s.activities[k].(lastReadMessageTime := Some(now))]))
  }

  /** Marking a channel read at a non-zero time later than all its messages
      brings its unread count to zero and leaves the mute flag alone. */
  lemma MarkAsReadClearsUnread(s: Store, caller: Id, c: Channel, now: int)
    requires now != 0
    requires forall i :: 0 <= i < |s.messages| ==> s.messages[i].creationTime < now
    ensures var s1 := MarkAsRead(s, true, Some(caller), c.id, now).value;
      && View(s1, c, caller).unreadCount == 0
      && View(s1, c, caller).isMuted == View(s, c, caller).isMuted
  {
    var s1 := MarkAsRead(s, true, Some(caller), c.id, now).value;
    match FindActivity(s.activities, c.id, caller)
    case None =>
      var n := |s.activities|;
      FindActivityAfterAppend(s.activities, s1.activities[n], c.id, caller);
    case Some(k) =>
      FindActivitySameKeys(s.activities, s1.activities, c.id, caller);
    assert Since(ActivityOf(s1, c.id, caller)) == Some(now);
  }

  // ---------------------------------------------------------------------------
  // updateOrder

  predicate InUserTeams(teams: seq<UserTeam>, userId: Id, teamId: Id) {
    exists i :: 0 <= i < |teams| && teams[i].userId == userId && teams[i].teamId == teamId
  }

  datatype OrderEntry = OrderEntry(channelId: Id, order: int)

  /** What the loop checks for one entry. */
  function CheckEntry(s: Store, userId: Id, e: OrderEntry): (r: Option<Error>)
    ensures r == None <==>
      FindChannel(s.channels, e.channelId).Some?
      && InUserTeams(s.userTeams, userId, s.channels[FindChannel(s.channels, e.channelId).value].teamId)
    ensures r.Some? ==> r.value == ChannelNotFound || r.value == NotInTeam
  {
    match FindChannel(s.channels, e.channelId)
    case None => Some(ChannelNotFound)
    case Some(k) => if InUserTeams(s.userTeams, userId, s.channels[k].teamId) then None else Some(NotInTeam)
  }

  /** Patch the first record for the pair, or insert one. */
  function UpsertOrder(os: seq<ChannelOrder>, userId: Id, e: OrderEntry): (r: seq<ChannelOrder>)
    ensures UniqueOrders(os) ==> UniqueOrders(r)
    ensures LastOrder(r, userId, e.channelId) == Some(e.order) || !UniqueOrders(os)
    ensures forall ch, u :: (ch != e.channelId || u != userId) ==> LastOrder(r, u, ch) == LastOrder(os, u, ch)
  {
    match FindOrder(os, e.channelId, userId)
    case None =>
      var r := os + [ChannelOrder(e.channelId, userId, e.order)];
      assert forall i :: 0 <= i < |os| ==> r[i] == os[i];
      assert r[..|r| - 1] == os;
      r
    case Some(k) =>
      PatchFacts(os, k, e.order);
      os[k := os[k].(order := e.order)]
  }

  lemma PatchFacts(os: seq<ChannelOrder>, k: nat, order: int)
    requires k < |os|
    ensures var r := os[k := os[k].(order := order)];
      && (UniqueOrders(os) ==> UniqueOrders(r) && LastOrder(r, os[k].userId, os[k].channelId) == Some(order))
      && forall ch, u :: (ch != os[k].channelId || u != os[k].userId) ==> LastOrder(r, u, ch) == LastOrder(os, u, ch)
  {
    var r := os[k := os[k].(order := order)];
    forall ch, u | ch != os[k].channelId || u != os[k].userId
      ensures LastOrder(r, u, ch) == LastOrder(os, u, ch)
    {
      LastOrderIgnoresOtherPatch(os, k, order, u, ch);
    }
    if UniqueOrders(os) {
      LastOrderOfUnique(r, k);
    }
  }

  /** Patching another pair's record does not change a lookup. */
  lemma {:induction false} LastOrderIgnoresOtherPatch(os: seq<ChannelOrder>, k: nat, order: int, u: Id, ch: Id)
    requires k < |os| && (os[k].channelId != ch || os[k].userId != u)
    ensures LastOrder(os[k := os[k].(order := order)], u, ch) == LastOrder(os, u, ch)
    decreases |os|
  {
    var r := os[k := os[k].(order := order)];
    var n := |os| - 1;
    if os[n].channelId == ch && os[n].userId == u {
      assert r[n] == os[n];
    } else if k < n {
      assert r[..n] == os[..n][k := os[k].(order := order)];
      LastOrderIgnoresOtherPatch(os[..n], k, order, u, ch);
    } else {
      assert r[..n] == os[..n];
    }
  }

  /** The loop of `updateOrder`, stopping at the first failing entry. */
  function ApplyOrders(s: Store, userId: Id, entries: seq<OrderEntry>): (r: Result<seq<ChannelOrder>, Error>)
    ensures r.Ok? <==> forall i :: 0 <= i < |entries| ==> CheckEntry(s, userId, entries[i]).None?
    ensures r.Ok? && UniqueOrders(s.orders) ==> UniqueOrders(r.value)
    ensures r.Err? ==> exists k: nat :: FirstFailure(s, userId, entries, k, r.error)
    decreases |entries|
  {
    ApplyFrom(s, userId, entries, s.orders)
  }

  /** Entry `k` is the first whose check fails, and it fails with `err`. */
  predicate FirstFailure(s: Store, userId: Id, entries: seq<OrderEntry>, k: nat, err: Error) {
    k < |entries| && CheckEntry(s, userId, entries[k]) == Some(err)
    && forall j :: 0 <= j < k ==> CheckEntry(s, userId, entries[j]).None?
  }

  function ApplyFrom(s: Store, userId: Id, entries: seq<OrderEntry>, os: seq<ChannelOrder>): (r: Result<seq<ChannelOrder>, Error>)
    ensures r.Ok? <==> forall i :: 0 <= i < |entries| ==> CheckEntry(s, userId, entries[i]).None?
    ensures r.Ok? && UniqueOrders(os) ==> UniqueOrders(r.value)
    ensures r.Err? ==> r.error == ChannelNotFound || r.error == NotInTeam
    ensures r.Err? ==> exists k: nat :: FirstFailure(s, userId, entries, k, r.error)
    decreases |entries|
  {
    if entries == [] then Ok(os)
    else match CheckEntry(s, userId, entries[0])
      case Some(err) =>
        assert FirstFailure(s, userId, entries, 0, err);
        Err(err)
      case None =>
        var r := ApplyFrom(s, userId, entries[1..], UpsertOrder(os, userId, entries[0]));
        assert forall i :: 1 <= i < |entries| ==> entries[i] == entries[1..][i - 1];
        FirstFailureShift(s, userId, entries, r);
        r
  }

  lemma FirstFailureShift(s: Store, userId: Id, entries: seq<OrderEntry>, r: Result<seq<ChannelOrder>, Error>)
    requires |entries| > 0 && CheckEntry(s, userId, entries[0]).None?
    requires r.Err? ==> exists k: nat :: FirstFailure(s, userId, entries[1..], k, r.error)
    ensures r.Err? ==> exists k: nat :: FirstFailure(s, userId, entries, k, r.error)
  {
    if r.Err? {
      var k: nat :| FirstFailure(s, userId, entries[1..], k, r.error);
      assert FirstFailure(s, userId, entries, k + 1, r.error);
    }
  }

  /** `updateOrder`: all or nothing — a missing channel or one outside the
      caller's teams aborts the mutation and leaves the store unchanged. */
  function UpdateOrder(s: Store, caller: Option<Id>, entries: seq<OrderEntry>): (r: Result<Store, Error>)
    ensures caller.None? ==> r == Err(Forbidden)
    ensures r.Ok? <==> caller.Some? && forall i :: 0 <= i < |entries| ==> CheckEntry(s, caller.value, entries[i]).None?
    ensures r.Err? && caller.Some? ==> exists k: nat :: FirstFailure(s, caller.value, entries, k, r.error)
    ensures r.Ok? ==> r.value.(orders := s.orders) == s
    ensures r.Ok? && UniqueOrders(s.orders) ==> UniqueOrders(r.value.orders)
  {
    if caller.None? then Err(Forbidden)
    else match ApplyOrders(s, caller.value, entries)
      case Err(e) => Err(e)
      case Ok(os) => Ok(s.(orders := os))
  }

  /** After a successful `updateOrder`, the caller's key for each listed
      channel is the last order given for it. */
  lemma {:induction false} ApplyFromSetsLast(s: Store, userId: Id, entries: seq<OrderEntry>, os: seq<ChannelOrder>, k: nat)
    requires UniqueOrders(os) && k < |entries|
    requires ApplyFrom(s, userId, entries, os).Ok?
    requires forall j :: k < j < |entries| ==> entries[j].channelId != entries[k].channelId
    ensures LastOrder(ApplyFrom(s, userId, entries, os).value, userId, entries[k].channelId) == Some(entries[k].order)
    decreases |entries|
  {
    var os1 := UpsertOrder(os, userId, entries[0]);
    assert ApplyFrom(s, userId, entries, os) == ApplyFrom(s, userId, entries[1..], os1);
    if k == 0 {
      ApplyFromKeeps(s, userId, entries[1..], os1, entries[0].channelId);
    } else {
      ApplyFromSetsLast(s, userId, entries[1..], os1, k - 1);
    }
  }

  /** Entries for other channels leave a lookup alone. */
  lemma {:induction false} ApplyFromKeeps(s: Store, userId: Id, entries: seq<OrderEntry>, os: seq<ChannelOrder>, ch: Id)
    requires ApplyFrom(s, userId, entries, os).Ok?
    requires forall j :: 0 <= j < |entries| ==> entries[j].channelId != ch
    ensures LastOrder(ApplyFrom(s, userId, entries, os).value, userId, ch) == LastOrder(os, userId, ch)
    decreases |entries|
  {
    if entries != [] {
      var os1 := UpsertOrder(os, userId, entries[0]);
      assert ApplyFrom(s, userId, entries, os) == ApplyFrom(s, userId, entries[1..], os1);
      ApplyFromKeeps(s, userId, entries[1..], os1, ch);
    }
  }

  /** No other user's lookup changes while the caller's entries apply. */
  lemma {:induction false} ApplyFromOtherUsers(s: Store, userId: Id, entries: seq<OrderEntry>, os: seq<ChannelOrder>, u: Id, ch: Id)
    requires u != userId
    requires ApplyFrom(s, userId, entries, os).Ok?
    ensures LastOrder(ApplyFrom(s, userId, entries, os).value, u, ch) == LastOrder(os, u, ch)
    decreases |entries|
  {
    if entries != [] {
      var os1 := UpsertOrder(os, userId, entries[0]);
      assert ApplyFrom(s, userId, entries, os) == ApplyFrom(s, userId, entries[1..], os1);
      ApplyFromOtherUsers(s, userId, entries[1..], os1, u, ch);
    }
  }

  /** `updateOrder` leaves every other user's order for every channel as it was. */
  lemma UpdateOrderKeepsOtherUsers(s: Store, caller: Id, entries: seq<OrderEntry>, u: Id, ch: Id)
    requires u != caller
    requires UpdateOrder(s, Some(caller), entries).Ok?
    ensures LastOrder(UpdateOrder(s, Some(caller), entries).value.orders, u, ch) == LastOrder(s.orders, u, ch)
  {
    ApplyFromOtherUsers(s, caller, entries, s.orders, u, ch);
  }

  lemma UpdateOrderSetsKeys(s: Store, caller: Id, entries: seq<OrderEntry>, k: nat)
    requires UniqueOrders(s.orders) && k < |entries|
    requires UpdateOrder(s, Some(caller), entries).Ok?
    requires forall j :: k < j < |entries| ==> entries[j].channelId != entries[k].channelId
    ensures LastOrder(UpdateOrder(s, Some(caller), entries).value.orders, caller, entries[k].channelId) == Some(entries[k].order)
  {
    ApplyFromSetsLast(s, caller, entries, s.orders, k);
  }
}

=== FILE: common.dfy ===
/** Optional values and fallible results shared by every module of the model.
    `Option` stands for the source's `undefined`/`null`-able fields, `Result`
    for an operation that either returns a value or throws. */
module Common {

  datatype Option<+T> = None | Some(value: T) {

    /** The value, or `default` when absent (the source's `??`). */
    function GetOr(default: T): T {
      match this
      case Some(v) => v
      case None => default
    }
  }

  datatype Result<+T, +E> = Ok(value: T) | Err(error: E)
}

=== FILE: edit_mode.dfy ===
/** The composer's link to the "edit my last message" mode, identical in both
    composer variants: switching channel leaves edit mode, and ArrowUp in an
    empty composer enters it for the user's last message. */
module EditMode {
  import opened Common
  import opened Text
  import MarkdownShortcuts

  type ChannelId = string
  type MessageId = string

  /** The global edit-message store and the ref remembering which channel the
      composer last rendered for. */
  datatype Session = Session(editMessageId: Option<MessageId>, previousChannel: Option<ChannelId>)

  /** The channel-change effect: on a new channel, leave edit mode and
      remember the channel; on the same channel, do nothing. */
  function OnChannel(s: Session, channelId: ChannelId): (r: Session)
    ensures r.previousChannel == Some(channelId)
    ensures s.previousChannel != Some(channelId) ==> r.editMessageId == None
    ensures s.previousChannel == Some(channelId) ==> r == s
  {
    if s.previousChannel != Some(channelId) then Session(None, Some(channelId)) else s
  }

  /** The composer's `onArrowUp` callback: enter edit mode for the user's last
      message when there is one and the draft is the empty string. */
  function OnArrowUp(s: Session, text: string, lastMessageIdOfUser: Option<MessageId>): (r: Session)
    ensures r.previousChannel == s.previousChannel
    ensures lastMessageIdOfUser.Some? && text == [] ==> r.editMessageId == lastMessageIdOfUser
    ensures !(lastMessageIdOfUser.Some? && text == []) ==> r == s
  {
    if lastMessageIdOfUser.Some? && text == [] then s.(editMessageId := lastMessageIdOfUser) else s
  }

  /** ArrowUp pressed in the composer's textarea: the textarea forwards the
      key only when the draft trims to empty, and the composer acts only when
      it is exactly empty. */
  function ArrowUpKey(s: Session, text: string, lastMessageIdOfUser: Option<MessageId>,
                      e: MarkdownShortcuts.KeyEvent, touch: bool): (r: Session)
  {
    var h := MarkdownShortcuts.Handlers(false, true, true);
    var sel := MarkdownShortcuts.Selection(|text|, |text|);
    if MarkdownShortcuts.OnKeyDown(e, h, touch, text, sel).arrowUp then OnArrowUp(s, text, lastMessageIdOfUser) else s
  }

  /** Edit mode starts from the keyboard exactly when the key is ArrowUp, the
      user has a last message, and the draft is the empty string; a draft of
      only spaces passes the textarea's check but not the composer's. */
  lemma ArrowUpEntersEditIff(s: Session, text: string, last: MessageId, e: MarkdownShortcuts.KeyEvent, touch: bool)
    requires s.editMessageId != Some(last)
    ensures ArrowUpKey(s, text, Some(last), e, touch).editMessageId == Some(last) <==> e.key == "ArrowUp" && text == []
  {
  }

  /** Two switches to the same channel act like one. */
  lemma OnChannelIdempotent(s: Session, channelId: ChannelId)
    ensures OnChannel(OnChannel(s, channelId), channelId) == OnChannel(s, channelId)
  {
  }
}

=== FILE: file_types.dfy ===
/** The file pill's `useFileTypes`: a MIME type is mapped to an icon and, by
    a second table with the same cases, to a short label. Types the tables
    do not list fall through to prefix and substring heuristics. */
module FileTypes {
  import opened Common
  import opened Text

  /** The lucide icons the pill can show. */
  datatype Icon = Document | Chart | Spreadsheet | Image | Video | Audio | Archive | Json | Code | Symlink | Question | Generic

  const WordTypes: set<string> := {
    "application/msword",
    "application/vnd.openxmlformats-officedocument.wordprocessingml.document"}
  const PowerPointTypes: set<string> := {
    "application/vnd.ms-powerpoint",
    "application/vnd.openxmlformats-officedocument.presentationml.presentation"}
  const SpreadsheetTypes: set<string> := {
    "X-IWORK-NUMBERS-SFFNUMBERS",
    "application/vnd.ms-excel",
    "application/vnd.openxmlformats-officedocument.spreadsheetml.sheet"}
  const ImageTypes: set<string> := {
    "image/jpeg", "image/png", "image/gif", "image/webp", "image/bmp", "image/svg+xml", "image/tiff", "image/heic"}
  const VideoTypes: set<string> := {
    "video/mp4", "video/quicktime", "video/x-msvideo", "video/x-matroska", "video/webm", "video/ogg"}
  const AudioTypes: set<string> := {
    "audio/mpeg", "audio/wav", "audio/ogg", "audio/mp4", "audio/webm", "audio/aac", "audio/flac"}
  const ArchiveTypes: set<string> := {
    "application/zip", "application/x-7z-compressed", "application/x-rar-compressed", "application/x-tar", "application/gzip"}
  const ShortcutTypes: set<string> := {"application/x-ms-shortcut", "application/x-symlink"}

  /** The source-code types, with the label the second table gives each. */
  const CodeLabels: map<string, string> := map[
    "text/html" := "HTML",
    "text/css" := "CSS",
    "text/javascript" := "JavaScript",
    "application/javascript" := "JavaScript",
    "application/x-sh" := "Shell",
    "application/x-python-code" := "Python",
    "application/x-httpd-php" := "PHP",
    "text/x-c" := "C",
    "text/x-c++" := "C++",
    "text/x-java-source" := "Java",
    "text/x-go" := "Go",
    "text/x-rustsrc" := "Rust",
    "text/x-typescript" := "TypeScript",
    "text/x-markdown" := "Markdown",
    "text/markdown" := "Markdown",
    "text/x-yaml" := "YAML",
    "text/x-shellscript" := "Shell"]

  /** The types either table names in a `case`. */
  predicate Listed(t: string) {
    t == "application/pdf" || t in WordTypes || t in PowerPointTypes || t in SpreadsheetTypes
    || t in ImageTypes || t in VideoTypes || t in AudioTypes || t in ArchiveTypes
    || t == "application/json" || t in CodeLabels || t in ShortcutTypes || t == ""
  }

  /** The archive heuristic of the `default` branches. */
  predicate LooksArchived(t: string) {
    Contains(t, "zip") || Contains(t, "tar") || Contains(t, "rar") || Contains(t, "7z")
  }

  predicate HasLower(s: string) {
    exists i :: 0 <= i < |s| && 'a' <= s[i] <= 'z'
  }

  /** The upper-cased second segment of the MIME type, or the fallback when
      that segment is missing or empty. */
  function SegmentLabel(t: string, fallback: string): (r: string)
    requires fallback != []
    ensures r != []
    ensures r == fallback || !HasLower(r)
    ensures r == fallback <==> (SecondSegment(t).None? || SecondSegment(t).value == [] || ToUpper(SecondSegment(t).value) == fallback)
    ensures SecondSegment(t).Some? && SecondSegment(t).value != [] ==> r == ToUpper(SecondSegment(t).value)
  {
    match SecondSegment(t)
    case None => fallback
    case Some(seg) =>
      var up := ToUpper(seg);
      assert !HasLower(up) by {
        forall i | 0 <= i < |up| ensures !('a' <= up[i] <= 'z') {
          ToUpperHasNoLower(seg, i);
        }
      }
      if up == [] then fallback else up
  }

  /** The icon table's `default` branch. */
  function DefaultIcon(t: string): (r: Icon)
    ensures r == Image <==> StartsWith(t, "image/")
    ensures r == Video <==> StartsWith(t, "video/") && !StartsWith(t, "image/")
    ensures r == Archive ==> LooksArchived(t)
    ensures r != Question && r != Spreadsheet && r != Chart && r != Code && r != Symlink
  {
    if StartsWith(t, "image/") then Image
    else if StartsWith(t, "video/") then Video
    else if StartsWith(t, "audio/") then Audio
    else if StartsWith(t, "text/") then Document
    else if StartsWith(t, "application/json") then Json
    else if LooksArchived(t) then Archive
    else Generic
  }

  /** The second character tells the source-code types from the media
      types: `text/` and `application/` against `image/`, `video/` and
      `audio/`. */
  lemma CodeSecondChar(t: string)
    requires t in CodeLabels
    ensures |t| > 1 && (t[1] == 'e' || t[1] == 'p')
  {
  }

  lemma MediaSecondChar(t: string)
    ensures t in ImageTypes ==> |t| > 1 && t[1] == 'm'
    ensures t in VideoTypes ==> |t| > 1 && t[1] == 'i'
    ensures t in AudioTypes ==> |t| > 1 && t[1] == 'u'
  {
  }

  lemma CodeNotOffice(t: string)
    requires t in CodeLabels
    ensures t != "application/pdf" && t !in WordTypes && t !in PowerPointTypes && t !in SpreadsheetTypes
  {
    CodeNotDocument(t);
    CodeNotSpreadsheet(t);
  }

  lemma CodeNotDocument(t: string)
    requires t in CodeLabels
    ensures t != "application/pdf" && t !in WordTypes
  {
  }

  lemma CodeNotSpreadsheet(t: string)
    requires t in CodeLabels
    ensures t !in PowerPointTypes && t !in SpreadsheetTypes
  {
  }

  lemma CodeNotArchive(t: string)
    requires t in CodeLabels
    ensures t !in ArchiveTypes && t != "application/json"
  {
  }

  /** No earlier case of either table names a source-code type. */
  lemma CodeTypesApart(t: string)
    ensures t in CodeLabels ==>
      && t != "application/pdf" && t !in WordTypes && t !in PowerPointTypes && t !in SpreadsheetTypes
      && t !in ImageTypes && t !in VideoTypes && t !in AudioTypes && t !in ArchiveTypes && t != "application/json"
  {
    if t in CodeLabels {
      CodeSecondChar(t);
      MediaSecondChar(t);
      CodeNotOffice(t);
      CodeNotArchive(t);
    }
  }

  /** The icon `useFileTypes` returns for a MIME type. */
  function IconFor(t: string): (r: Icon)
    ensures r == Question <==> t == ""
    ensures r == Spreadsheet <==> t in SpreadsheetTypes
    ensures r == Chart <==> t in PowerPointTypes
    ensures r == Code <==> t in CodeLabels
    ensures r == Symlink <==> t in ShortcutTypes
    ensures t == "application/pdf" || t in WordTypes ==> r == Document
    ensures t in ImageTypes ==> r == Image
    ensures t in VideoTypes ==> r == Video
    ensures t in AudioTypes ==> r == Audio
    ensures t in ArchiveTypes ==> r == Archive
    ensures t == "application/json" ==> r == Json
    ensures !Listed(t) ==> r == DefaultIcon(t)
  {
    CodeTypesApart(t);
    ListedApart(t);
    if t == "application/pdf" || t in WordTypes then Document
    else if t in PowerPointTypes then Chart
    else if t in SpreadsheetTypes then Spreadsheet
    else if t in ImageTypes then Image
    else if t in VideoTypes then Video
    else if t in AudioTypes then Audio
    else if t in ArchiveTypes then Archive
    else if t == "application/json" then Json
    else if t in CodeLabels then Code
    else if t in ShortcutTypes then Symlink
    else if t == "" then Question
    else DefaultIcon(t)
  }

  /** The label table's `default` branch. */
  function DefaultLabel(t: string): (r: string)
    ensures r != []
    ensures StartsWith(t, "image/") ==> r == "Image"
    ensures r == "Archive" <==>
      && LooksArchived(t) && !StartsWith(t, "image/") && !StartsWith(t, "video/")
      && !StartsWith(t, "audio/") && !StartsWith(t, "text/") && !StartsWith(t, "application/json")
  {
    assert HasLower("Archive") by { assert "Archive"[1] == 'r'; }
    if StartsWith(t, "image/") then "Image"
    else if StartsWith(t, "video/") then "Video"
    else if StartsWith(t, "audio/") then "Audio"
    else if StartsWith(t, "text/") then SegmentLabel(t, "Text")
    else if StartsWith(t, "application/json") then "JSON"
    else if LooksArchived(t) then "Archive"
    else SegmentLabel(t, "Unknown File")
  }

  /** The label `useFileTypes` returns for a MIME type. */
  function LabelFor(t: string): (r: string)
    ensures r != []
    ensures t == "" ==> r == "Unknown"
    ensures t == "application/pdf" ==> r == "PDF"
    ensures t in WordTypes ==> r == "Word"
    ensures t in PowerPointTypes ==> r == "PowerPoint"
    ensures t in SpreadsheetTypes ==> r == "Excel"
    ensures t in ArchiveTypes ==> r == "Archive"
    ensures t == "application/json" ==> r == "JSON"
    ensures t in CodeLabels ==> r == CodeLabels[t]
    ensures t in ShortcutTypes ==> r == "Shortcut"
    ensures !Listed(t) ==> r == DefaultLabel(t)
  {
    CodeTypesApart(t);
    ListedApart(t);
    if t == "application/pdf" then "PDF"
    else if t in WordTypes then "Word"
    else if t in PowerPointTypes then "PowerPoint"
    else if t in SpreadsheetTypes then "Excel"
    else if t in ImageTypes then SegmentLabel(t, "Image")
    else if t in VideoTypes then SegmentLabel(t, "Video")
    else if t in AudioTypes then SegmentLabel(t, "Audio")
    else if t in ArchiveTypes then "Archive"
    else if t == "application/json" then "JSON"
    else if t in CodeLabels then CodeLabels[t]
    else if t in ShortcutTypes then "Shortcut"
    else if t == "" then "Unknown"
    else DefaultLabel(t)
  }

  /** Each listed case is reached: no earlier case of the tables names a
      type of a later one. */
  lemma ListedApart(t: string)
    ensures t in WordTypes ==> t != "application/pdf"
    ensures t in VideoTypes || t in AudioTypes ==> t !in ImageTypes && t != "application/pdf"
    ensures t in VideoTypes || t in AudioTypes ==> t !in WordTypes && t !in PowerPointTypes && t !in SpreadsheetTypes
    ensures t in AudioTypes ==> t !in VideoTypes
    ensures t in ArchiveTypes || t == "application/json" ==> !MediaOrOffice(t)
    ensures t == "application/json" ==> t !in ArchiveTypes
    ensures t in ShortcutTypes ==> !MediaOrOffice(t) && t !in ArchiveTypes && t != "application/json" && t !in CodeLabels
  {
    MediaSecondChar(t);
  }

  /** A type the tables name before their archive case. */
  predicate MediaOrOffice(t: string) {
    t == "application/pdf" || t in WordTypes || t in PowerPointTypes || t in SpreadsheetTypes
    || t in ImageTypes || t in VideoTypes || t in AudioTypes
  }

  /** The two tables agree on archives: the archive icon is shown exactly
      when the label reads "Archive". */
  lemma ArchiveIconIffLabel(t: string)
    ensures IconFor(t) == Archive <==> LabelFor(t) == "Archive"
  {
    assert HasLower("Archive") by { assert "Archive"[1] == 'r'; }
  }

  /** The question-mark icon appears exactly with the label "Unknown". */
  lemma QuestionIconIffUnknown(t: string)
    ensures IconFor(t) == Question <==> LabelFor(t) == "Unknown"
  {
    if t != "" {
      LabelNotUnknown(t);
    }
  }

  /** Only the empty type is labelled "Unknown": every other label differs
      from it in its first letter, its length or its lack of lower-case
      letters. */
  lemma LabelNotUnknown(t: string)
    requires t != ""
    ensures LabelFor(t) != "Unknown"
  {
    assert HasLower("Unknown") by { assert "Unknown"[1] == 'n'; }
    if t in CodeLabels {
      CodeLabelInitial(t);
    }
  }

  lemma CodeLabelInitial(t: string)
    requires t in CodeLabels
    ensures CodeLabels[t] != [] && CodeLabels[t][0] != 'U'
  {
  }

  lemma PrefixChar(t: string, p: string, i: nat)
    requires i < |p| && StartsWith(t, p)
    ensures i < |t| && t[i] == p[i]
  {
    assert t[..|p|][i] == p[i];
  }

  /** Only types starting with `image/` get the image icon. */
  lemma ImageIconMeansImagePrefix(t: string)
    ensures IconFor(t) == Image ==> StartsWith(t, "image/")
  {
  }

  /** Every source-code type gets the code icon and its own label. */
  lemma CodeTypesLabelled(t: string)
    requires t in CodeLabels
    ensures IconFor(t) == Code && LabelFor(t) == CodeLabels[t]
  {
    CodeTypesApart(t);
  }

  /** Spreadsheet icon and "Excel" label go together. */
  lemma SpreadsheetIffExcel(t: string)
    ensures IconFor(t) == Spreadsheet <==> LabelFor(t) == "Excel"
  {
    assert HasLower("Excel") by { assert "Excel"[1] == 'x'; }
    assert "Excel" !in CodeLabels.Values;
  }

  /** A label reading "Image" only ever comes with the image icon. */
  lemma ImageLabelHasImageIcon(t: string)
    ensures LabelFor(t) == "Image" ==> IconFor(t) == Image
  {
    assert HasLower("Image") by { assert "Image"[1] == 'm'; }
  }

  /** Listed image types show their upper-cased subtype, e.g. "SVG+XML". */
  lemma ListedImageLabel(t: string)
    requires t in ImageTypes
    ensures IconFor(t) == Image && LabelFor(t) == ToUpper(t[6..])
  {
    ImageTypeShape(t);
    SecondSegmentAfter("image/", t[6..]);
    ImageTypeNotEarlier(t);
    assert LabelFor(t) == SegmentLabel(t, "Image");
  }

  /** Listed video types show their upper-cased subtype, e.g. "MP4". */
  lemma ListedVideoLabel(t: string)
    requires t in VideoTypes
    ensures IconFor(t) == Video && LabelFor(t) == ToUpper(t[6..])
  {
    VideoTypeShape(t);
    SecondSegmentAfter("video/", t[6..]);
    ListedApart(t);
    assert LabelFor(t) == SegmentLabel(t, "Video");
  }

  /** Listed audio types show their upper-cased subtype, e.g. "MPEG". */
  lemma ListedAudioLabel(t: string)
    requires t in AudioTypes
    ensures IconFor(t) == Audio && LabelFor(t) == ToUpper(t[6..])
  {
    AudioTypeShape(t);
    SecondSegmentAfter("audio/", t[6..]);
    ListedApart(t);
    assert LabelFor(t) == SegmentLabel(t, "Audio");
  }

  lemma VideoTypeShape(t: string)
    requires t in VideoTypes
    ensures |t| > 6 && t == "video/" + t[6..] && '/' !in t[6..]
  {
    VideoTypePrefix(t);
    VideoSubtypeFlat(t);
  }

  lemma VideoTypePrefix(t: string)
    requires t in VideoTypes
    ensures |t| > 6 && t[..6] == "video/"
  {
  }

  lemma VideoSubtypeFlat(t: string)
    requires t in VideoTypes
    ensures |t| > 6 && '/' !in t[6..]
  {
  }

  lemma AudioTypeShape(t: string)
    requires t in AudioTypes
    ensures |t| > 6 && t == "audio/" + t[6..] && '/' !in t[6..]
  {
    AudioTypePrefix(t);
    AudioSubtypeFlat(t);
  }

  lemma AudioTypePrefix(t: string)
    requires t in AudioTypes
    ensures |t| > 6 && t[..6] == "audio/"
  {
  }

  lemma AudioSubtypeFlat(t: string)
    requires t in AudioTypes
    ensures |t| > 6 && '/' !in t[6..]
  {
  }

  lemma ImageTypeNotEarlier(t: string)
    requires t in ImageTypes
    ensures t != "application/pdf" && t !in WordTypes && t !in PowerPointTypes && t !in SpreadsheetTypes
  {
  }

  lemma ImageTypeShape(t: string)
    requires t in ImageTypes
    ensures |t| > 6 && t == "image/" + t[6..] && '/' !in t[6..]
  {
  }

  lemma SvgLabel(t: string)
    requires t == "image/svg+xml"
    ensures LabelFor(t) == "SVG+XML"
  {
    ListedImageLabel(t);
    UpperSvg(t);
  }

  lemma UpperSvg(t: string)
    requires t == "image/svg+xml"
    ensures ToUpper(t[6..]) == "SVG+XML"
  {
    var u := ToUpper(t[6..]);
    assert t[6] == 's' && t[7] == 'v' && t[8] == 'g' && t[9] == '+' && t[10] == 'x' && t[11] == 'm' && t[12] == 'l';
    assert u[0] == 'S' && u[1] == 'V' && u[2] == 'G' && u[3] == '+' && u[4] == 'X' && u[5] == 'M' && u[6] == 'L';
  }

  /** An unlisted `image/`, `video/` or `audio/` type shows its category
      name. */
  lemma UnlistedMedia(t: string)
    requires !Listed(t)
    ensures StartsWith(t, "image/") ==> IconFor(t) == Image && LabelFor(t) == "Image"
    ensures StartsWith(t, "video/") ==> IconFor(t) == Video && LabelFor(t) == "Video"
    ensures StartsWith(t, "audio/") ==> IconFor(t) == Audio && LabelFor(t) == "Audio"
  {
    if StartsWith(t, "video/") || StartsWith(t, "audio/") {
      PrefixChar(t, if StartsWith(t, "video/") then "video/" else "audio/", 0);
      assert !StartsWith(t, "image/");
    }
    if StartsWith(t, "audio/") {
      PrefixChar(t, "audio/", 0);
      assert !StartsWith(t, "video/");
    }
  }

  /** An unlisted `text/` type shows the subtype up to the next slash,
      upper-cased, or "Text" when that is empty. */
  lemma UnlistedText(t: string)
    requires !Listed(t) && StartsWith(t, "text/")
    ensures IconFor(t) == Document
    ensures var seg := BeforeSlash(t[5..]);
      LabelFor(t) == if seg == [] then "Text" else ToUpper(seg)
  {
    PrefixChar(t, "text/", 0);
    PrefixChar(t, "text/", 1);
    assert !StartsWith(t, "image/") && !StartsWith(t, "video/") && !StartsWith(t, "audio/");
    assert t == "text/" + t[5..];
    SecondSegmentAfter("text/", t[5..]);
  }

  /** An unlisted type under `application/json` is JSON. */
  lemma UnlistedJson(t: string)
    requires !Listed(t) && StartsWith(t, "application/json")
    ensures IconFor(t) == Json && LabelFor(t) == "JSON"
  {
    PrefixChar(t, "application/json", 0);
    PrefixChar(t, "application/json", 1);
    assert !StartsWith(t, "image/") && !StartsWith(t, "video/") && !StartsWith(t, "text/");
    assert !StartsWith(t, "audio/") by {
      if StartsWith(t, "audio/") { PrefixChar(t, "audio/", 1); }
    }
  }

  /** The prefix rules of the `default` branches. */
  predicate PrefixRule(t: string) {
    StartsWith(t, "image/") || StartsWith(t, "video/") || StartsWith(t, "audio/")
    || StartsWith(t, "text/") || StartsWith(t, "application/json")
  }

  /** The archive heuristic applies only when no prefix rule matched. */
  lemma UnlistedArchive(t: string)
    requires !Listed(t) && !PrefixRule(t)
    ensures LooksArchived(t) ==> IconFor(t) == Archive && LabelFor(t) == "Archive"
  {
  }

  /** Everything else gets the generic icon and its subtype, upper-cased,
      or "Unknown File". */
  lemma Fallback(t: string)
    requires !Listed(t) && !PrefixRule(t) && !LooksArchived(t)
    ensures IconFor(t) == Generic
    ensures LabelFor(t) == match SecondSegment(t)
      case None => "Unknown File"
      case Some(seg) => if seg == [] then "Unknown File" else ToUpper(seg)
  {
  }
}

=== FILE: markdown.dfy ===
/** The composer textarea's keyboard shortcuts: Cmd/Ctrl+B, I and U toggle a
    Markdown wrapper (`**`, `*`, `~~`) around the selection, and Escape,
    Enter and ArrowUp are forwarded to optional handlers. */
module MarkdownShortcuts {
  import opened Common
  import opened Text

  /** A textarea selection; the DOM keeps `start <= end <= value.length`. */
  datatype Selection = Selection(start: nat, end: nat)

  /** The value handed to `onChangeValue` and the selection restored after it. */
  datatype Edit = Edit(value: string, selection: Selection)

  predicate ValidIn(value: string, sel: Selection) {
    sel.start <= sel.end <= |value|
  }

  /** `isWrapped`: the text before the selection ends with the wrapper and the
      text after it starts with it. */
  predicate IsWrapped(value: string, sel: Selection, w: string)
    requires ValidIn(value, sel)
  {
    EndsWith(value[..sel.start], w) && StartsWith(value[sel.end..], w)
  }

  /** `before.slice(0, -n)`. JavaScript reads `-0` as `0`, so `slice(0, -0)`
      is empty rather than the whole string. */
  function DropLast(s: string, n: nat): string
    requires n <= |s|
  {
    if n == 0 then [] else s[..|s| - n]
  }

  /** The adding branch of `wrapText`. */
  function Wrap(value: string, sel: Selection, w: string): (r: Edit)
    requires ValidIn(value, sel)
    ensures r.value == value[..sel.start] + w + value[sel.start..sel.end] + w + value[sel.end..]
    ensures r.selection == Selection(sel.start + |w|, sel.end + |w|)
    ensures |r.value| == |value| + 2 * |w|
    ensures ValidIn(r.value, r.selection)
    ensures r.value[r.selection.start..r.selection.end] == value[sel.start..sel.end]
  {
    var selected := value[sel.start..sel.end];
    var v := value[..sel.start] + w + selected + w + value[sel.end..];
    var pos := sel.start + |w|;
    assert v[pos..pos + |selected|] == selected;
    Edit(v, Selection(pos, pos + |selected|))
  }

  /** The removing branch of `wrapText`, taken when `IsWrapped` holds. */
  function Unwrap(value: string, sel: Selection, w: string): (r: Edit)
    requires ValidIn(value, sel) && IsWrapped(value, sel, w)
    ensures |w| > 0 ==> r.value == value[..sel.start - |w|] + value[sel.start..sel.end] + value[sel.end + |w|..]
    ensures |w| == 0 ==> r.value == value[sel.start..]
    ensures r.selection == Selection(sel.start - |w|, sel.end - |w|)
    ensures |w| > 0 ==> |r.value| == |value| - 2 * |w|
    ensures |w| > 0 ==> ValidIn(r.value, r.selection)
    ensures |w| > 0 ==> r.value[r.selection.start..r.selection.end] == value[sel.start..sel.end]
  {
    UnwrapShape(value, sel, w);
    var selected := value[sel.start..sel.end];
    Edit(DropLast(value[..sel.start], |w|) + selected + value[sel.end..][|w|..],
         Selection(sel.start - |w|, sel.start - |w| + |selected|))
  }

  /** What the removing branch's string expression is, with and without a
      wrapper. */
  lemma UnwrapShape(value: string, sel: Selection, w: string)
    requires ValidIn(value, sel) && IsWrapped(value, sel, w)
    ensures var v := DropLast(value[..sel.start], |w|) + value[sel.start..sel.end] + value[sel.end..][|w|..];
      && (|w| > 0 ==> v == value[..sel.start - |w|] + value[sel.start..sel.end] + value[sel.end + |w|..])
      && (|w| > 0 ==> v[sel.start - |w|..sel.end - |w|] == value[sel.start..sel.end])
      && (|w| == 0 ==> v == value[sel.start..])
  {
    var selected := value[sel.start..sel.end];
    var after := value[sel.end..];
    var v := DropLast(value[..sel.start], |w|) + selected + after[|w|..];
    var pos := sel.start - |w|;
    assert after[|w|..] == value[sel.end + |w|..];
    if |w| > 0 {
      assert DropLast(value[..sel.start], |w|) == value[..pos];
      assert v[pos..pos + |selected|] == selected;
    } else {
      assert v == value[sel.start..];
    }
  }

  /** `wrapText(w)`: removes the wrapper around the selection when it is
      already there, otherwise adds it; the new selection starts at the moved
      cursor and spans as many characters as the old selection. */
  function Toggle(value: string, sel: Selection, w: string): (r: Edit)
    requires ValidIn(value, sel)
    ensures r.selection.end - r.selection.start == sel.end - sel.start
    ensures !IsWrapped(value, sel, w) ==> r == Wrap(value, sel, w)
    ensures IsWrapped(value, sel, w) ==> r == Unwrap(value, sel, w)
    ensures |w| > 0 || !IsWrapped(value, sel, w) ==>
      && ValidIn(r.value, r.selection)
      && r.value[r.selection.start..r.selection.end] == value[sel.start..sel.end]
  {
    if IsWrapped(value, sel, w) then Unwrap(value, sel, w) else Wrap(value, sel, w)
  }

  /** Wrapping the middle of `before + selected + after`. */
  lemma WrapParts(before: string, selected: string, after: string, w: string)
    ensures var v := before + selected + after;
      var sel := Selection(|before|, |before| + |selected|);
      ValidIn(v, sel) &&
      Wrap(v, sel, w) == Edit(before + w + selected + w + after, Selection(|before| + |w|, |before| + |w| + |selected|))
  {
    var v := before + selected + after;
    assert v[..|before|] == before;
    assert v[|before|..|before| + |selected|] == selected;
    assert v[|before| + |selected|..] == after;
  }

  /** Unwrapping the middle of `before + w + selected + w + after`. */
  lemma UnwrapParts(before: string, selected: string, after: string, w: string)
    requires |w| > 0
    ensures var v := before + w + selected + w + after;
      var sel := Selection(|before| + |w|, |before| + |w| + |selected|);
      ValidIn(v, sel) && IsWrapped(v, sel, w) &&
      Unwrap(v, sel, w) == Edit(before + selected + after, Selection(|before|, |before| + |selected|))
  {
    var v := before + w + selected + w + after;
    var sel := Selection(|before| + |w|, |before| + |w| + |selected|);
    assert v[..sel.start] == before + w;
    assert v[sel.start..sel.end] == selected;
    assert v[sel.end..] == w + after;
    assert v[..sel.start - |w|] == before;
    assert v[sel.end + |w|..] == after;
  }

  /** A string is the concatenation of its pieces between four cuts. */
  lemma SplitFive(v: string, a: nat, b: nat, c: nat, d: nat)
    requires a <= b <= c <= d <= |v|
    ensures v == v[..a] + v[a..b] + v[b..c] + v[c..d] + v[d..]
  {
    assert v[..a] + v[a..b] == v[..b];
    assert v[..b] + v[b..c] == v[..c];
    assert v[..c] + v[c..d] == v[..d];
    assert v[..d] + v[d..] == v;
  }

  /** Wrapping an unwrapped selection and toggling the same wrapper on the
      resulting selection gives back the original value and selection. */
  lemma WrapThenUnwrap(value: string, sel: Selection, w: string)
    requires ValidIn(value, sel) && |w| > 0 && !IsWrapped(value, sel, w)
    ensures var e := Toggle(value, sel, w);
      ValidIn(e.value, e.selection) && IsWrapped(e.value, e.selection, w) && Toggle(e.value, e.selection, w) == Edit(value, sel)
  {
    var before, selected, after := value[..sel.start], value[sel.start..sel.end], value[sel.end..];
    assert value == before + selected + after;
    WrapParts(before, selected, after, w);
    UnwrapParts(before, selected, after, w);
  }

  /** Unwrapping and toggling again restores the original, unless the
      unwrapped selection happens to sit inside a second wrapper. */
  lemma UnwrapThenWrap(value: string, sel: Selection, w: string)
    requires ValidIn(value, sel) && |w| > 0 && IsWrapped(value, sel, w)
    ensures var e := Toggle(value, sel, w);
      ValidIn(e.value, e.selection) &&
      (!IsWrapped(e.value, e.selection, w) ==> Toggle(e.value, e.selection, w) == Edit(value, sel))
  {
    var before, selected, after := value[..sel.start - |w|], value[sel.start..sel.end], value[sel.end + |w|..];
    assert value[sel.start - |w|..sel.start] == w;
    assert value[sel.end..sel.end + |w|] == w;
    SplitFive(value, sel.start - |w|, sel.start, sel.end, sel.end + |w|);
    assert sel == Selection(|before| + |w|, |before| + |w| + |selected|);
    UnwrapParts(before, selected, after, w);
    var e := Toggle(value, sel, w);
    assert e == Edit(before + selected + after, Selection(|before|, |before| + |selected|));
    WrapParts(before, selected, after, w);
    if !IsWrapped(e.value, e.selection, w) {
      assert Toggle(e.value, e.selection, w) == Wrap(e.value, e.selection, w);
    }
  }

  datatype Style = Bold | Italic | Strike

  function Marker(s: Style): (w: string)
    ensures |w| > 0
  {
    match s
    case Bold => "**"
    case Italic => "*"
    case Strike => "~~"
  }

  datatype KeyEvent = KeyEvent(key: string, meta: bool, ctrl: bool, shift: bool, composing: bool)

  /** Which optional callbacks the textarea was given. */
  datatype Handlers = Handlers(hasEscape: bool, hasSubmit: bool, hasArrowUp: bool)

  /** What one keydown does: the wrapper toggled (and the resulting edit),
      which callbacks run, and whether the default action is prevented. */
  datatype Response = Response(
    wrap: Option<Style>, edit: Option<Edit>,
    escape: bool, submit: bool, arrowUp: bool, prevented: bool)

  predicate Modifier(e: KeyEvent) {
    e.meta || e.ctrl
  }

  /** The `onKeyDown` handler. `touch` is the `ontouchstart`/`maxTouchPoints`
      probe; `value` is the controlled value, `sel` the DOM selection. */
  function OnKeyDown(e: KeyEvent, h: Handlers, touch: bool, value: string, sel: Selection): (r: Response)
    requires ValidIn(value, sel)
    ensures r.wrap == Some(Bold) <==> e.key == "b" && Modifier(e) && !e.shift
    ensures r.wrap == Some(Italic) <==> e.key == "i" && Modifier(e)
    ensures r.wrap == Some(Strike) <==> e.key == "u" && Modifier(e)
    ensures r.edit.Some? <==> r.wrap.Some?
    ensures r.wrap.Some? ==> r.edit == Some(Toggle(value, sel, Marker(r.wrap.value)))
    ensures r.escape <==> h.hasEscape && e.key == "Escape"
    ensures r.submit <==> h.hasSubmit && e.key == "Enter" && !e.shift && !e.composing && !touch
    ensures r.arrowUp <==> h.hasArrowUp && e.key == "ArrowUp" && Blank(value)
  {
    var style :=
      if e.key == "b" && Modifier(e) && !e.shift then Some(Bold)
      else if e.key == "i" && Modifier(e) then Some(Italic)
      else if e.key == "u" && Modifier(e) then Some(Strike)
      else None;
    var escape := h.hasEscape && e.key == "Escape";
    var enter := h.hasSubmit && e.key == "Enter" && !e.shift && !e.composing;
    TrimEmptyIffBlank(value);
    var arrowUp := h.hasArrowUp && e.key == "ArrowUp" && Trim(value) == [];
    Response(
      style,
      if style.Some? then Some(Toggle(value, sel, Marker(style.value))) else None,
      escape, enter && !touch, arrowUp,
      style.Some? || escape || (enter && !touch) || arrowUp)
  }

  /** One keystroke triggers at most one of the shortcuts, and the default
      action is prevented exactly when one of them fires. */
  lemma OneActionPerKey(e: KeyEvent, h: Handlers, touch: bool, value: string, sel: Selection)
    requires ValidIn(value, sel)
    ensures var r := OnKeyDown(e, h, touch, value, sel);
      && (r.prevented <==> r.wrap.Some? || r.escape || r.submit || r.arrowUp)
      && (r.wrap.Some? ==> !r.escape && !r.submit && !r.arrowUp)
      && (r.escape ==> !r.submit && !r.arrowUp)
      && (r.submit ==> !r.arrowUp)
  {
  }
}

=== FILE: new_channel.dfy ===
/** The "Create channel" popover form: it keeps the typed name lower-cased,
    refuses to submit without a team or with a blank name, sends the
    lower-cased, trimmed name, and on success closes and opens the new
    channel. */
module NewChannel {
  import opened Common
  import opened Text
  import Channels

  /** The input's value and whether the popover is open. */
  datatype Form = Form(name: string, open: bool)

  /** The input's `onChange`: the state holds the typed value lower-cased. */
  function OnInput(f: Form, typed: string): (r: Form)
    ensures r.name == ToLower(typed)
    ensures |r.name| == |typed|
    ensures forall i :: 0 <= i < |typed| ==> !('A' <= r.name[i] <= 'Z')
    ensures ToLower(r.name) == r.name
    ensures r.open == f.open
  {
    ToLowerIdempotent(typed);
    f.(name := ToLower(typed))
  }

  datatype Request = Skipped | Sent(name: string, teamId: string)

  /** The guard of `handleCreateChannel`: a missing or empty route team id,
      or a name that trims to nothing, stops before any call. */
  function MakeRequest(f: Form, teamId: Option<string>): (r: Request)
    ensures r.Skipped? <==> teamId.None? || teamId.value == [] || Blank(f.name)
    ensures r.Sent? ==> r.name == Normalize(f.name) && r.teamId == teamId.value
    ensures r.Sent? ==> r.name != [] && |r.name| <= |f.name|
  {
    TrimEmptyIffBlank(f.name);
    if teamId.None? || teamId.value == [] then Skipped
    else if Trim(f.name) == [] then Skipped
    else Sent(Normalize(f.name), teamId.value)
  }

  datatype Reply = Created(channelId: string) | Failed

  /** What the form shows after the mutation settles. */
  datatype Screen = Screen(form: Form, navigateTo: Option<string>, errorShown: bool)

  /** On success the popover closes and the app navigates to the channel;
      on failure an error toast appears and the form stays as it was. */
  function Settle(f: Form, teamId: string, reply: Reply): (r: Screen)
    ensures reply.Created? ==> !r.form.open && !r.errorShown && r.navigateTo == Some("/" + teamId + "/" + reply.channelId)
    ensures reply.Failed? ==> r.form == f && r.navigateTo.None? && r.errorShown
    ensures r.form.name == f.name
  {
    match reply
    case Created(id) => Screen(f.(open := false), Some("/" + teamId + "/" + id), false)
    case Failed => Screen(f, None, true)
  }

  /** The server's own lower(trim(·)) leaves the sent name unchanged, and
      the sent name is never blank. */
  lemma SentNameIsNormal(f: Form, teamId: Option<string>)
    ensures var r := MakeRequest(f, teamId);
      r.Sent? ==> Normalize(r.name) == r.name && !Blank(r.name)
  {
    var r := MakeRequest(f, teamId);
    if r.Sent? {
      NormalizeIdempotent(f.name);
    }
  }

  /** Whatever the form sends passes the server's name check and is stored
      verbatim; the server can still refuse it for the other reasons. */
  lemma ServerStoresSentName(f: Form, teamId: Option<string>, s: Channels.Store, teamIdValid: bool,
                             caller: Option<Channels.Id>, team: Channels.Id, newId: Channels.Id, now: int)
    requires Channels.FreshChannelId(s, newId)
    requires MakeRequest(f, teamId).Sent?
    ensures var c := Channels.Create(s, MakeRequest(f, teamId).name, teamIdValid, caller, team, newId, now);
      && c != Err(Channels.NameRequired)
      && (c.Ok? ==> c.value.store.channels[|s.channels|].name == MakeRequest(f, teamId).name)
  {
    SentNameIsNormal(f, teamId);
  }
}

=== FILE: previews.dfy ===
/** The composer's attachment strip, shared by both composer variants: an
    ordered list of previews, each a file the user dropped or recorded, the
    object URL that renders it, and — once its bytes are uploaded — the
    storage id the server handed back. */
module Previews {
  import opened Common

  type FileId = string
  type StorageId = string

  /** What the browser's `File` tells the composer. */
  datatype FileInfo = FileInfo(name: string, contentType: string, size: nat)

  datatype Preview = Preview(id: FileId, file: FileInfo, url: string, storageId: Option<StorageId>)

  predicate HasId(ps: seq<Preview>, id: FileId) {
    exists i :: 0 <= i < |ps| && ps[i].id == id
  }

  /** Every entry with that id gets the storage id; the others are kept. */
  function MarkStored(ps: seq<Preview>, id: FileId, sid: StorageId): (r: seq<Preview>)
    ensures |r| == |ps|
    ensures forall i :: 0 <= i < |ps| && ps[i].id != id ==> r[i] == ps[i]
    ensures forall i :: 0 <= i < |ps| && ps[i].id == id ==> r[i] == ps[i].(storageId := Some(sid))
  {
    if ps == [] then []
    else [if ps[0].id == id then ps[0].(storageId := Some(sid)) else ps[0]] + MarkStored(ps[1..], id, sid)
  }

  /** Marking an entry stored twice is the same as marking it once. */
  lemma MarkStoredIdempotent(ps: seq<Preview>, id: FileId, sid: StorageId)
    ensures MarkStored(MarkStored(ps, id, sid), id, sid) == MarkStored(ps, id, sid)
  {
  }

  /** A completion for an id no longer in the list changes nothing. */
  lemma MarkStoredAbsent(ps: seq<Preview>, id: FileId, sid: StorageId)
    requires !HasId(ps, id)
    ensures MarkStored(ps, id, sid) == ps
  {
  }

  /** The entries whose id differs, in order. */
  function Without(ps: seq<Preview>, id: FileId): (r: seq<Preview>)
    ensures |r| <= |ps|
    ensures !HasId(r, id)
    ensures forall p :: p in r <==> p in ps && p.id != id
  {
    if ps == [] then []
    else if ps[0].id == id then Without(ps[1..], id)
    else [ps[0]] + Without(ps[1..], id)
  }

  /** Filtering distributes over concatenation, so the kept entries keep
      their relative order. */
  lemma {:induction false} WithoutAppend(a: seq<Preview>, b: seq<Preview>, id: FileId)
    ensures Without(a + b, id) == Without(a, id) + Without(b, id)
    decreases |a|
  {
    if a != [] {
      assert (a + b)[1..] == a[1..] + b;
      WithoutAppend(a[1..], b, id);
    } else {
      assert a + b == b;
    }
  }

  /** Removing an id that is not present keeps the list as it is. */
  lemma {:induction false} WithoutAbsent(ps: seq<Preview>, id: FileId)
    requires !HasId(ps, id)
    ensures Without(ps, id) == ps
    decreases |ps|
  {
    if ps != [] {
      assert !HasId(ps[1..], id) by {
        forall i | 0 <= i < |ps[1..]| ensures ps[1..][i].id != id {
          assert ps[1..][i] == ps[i + 1];
        }
      }
      WithoutAbsent(ps[1..], id);
    }
  }

  /** A removed entry's late upload completion is a no-op. */
  lemma MarkStoredAfterRemove(ps: seq<Preview>, id: FileId, sid: StorageId)
    ensures MarkStored(Without(ps, id), id, sid) == Without(ps, id)
  {
    MarkStoredAbsent(Without(ps, id), id, sid);
  }

  /** The position of the first entry with that id (`findIndex`). */
  function FindIndex(ps: seq<Preview>, id: FileId): (r: Option<nat>)
    ensures r.Some? ==> r.value < |ps| && ps[r.value].id == id
    ensures r.Some? ==> forall j :: 0 <= j < r.value ==> ps[j].id != id
    ensures r.None? <==> !HasId(ps, id)
    decreases |ps|
  {
    if ps == [] then None
    else if ps[0].id == id then Some(0)
    else match FindIndex(ps[1..], id)
      case None =>
        assert !HasId(ps, id) by {
          forall i | 0 <= i < |ps| ensures ps[i].id != id {
            if i > 0 { assert ps[i] == ps[1..][i - 1]; }
          }
        }
        None
      case Some(k) => Some(k + 1)
  }

  /** The first entry with that id (`find`). */
  function Find(ps: seq<Preview>, id: FileId): (r: Option<Preview>)
    ensures r.Some? <==> HasId(ps, id)
    ensures r.Some? ==> r.value.id == id && r.value in ps
    ensures r.Some? ==> FindIndex(ps, id).Some? && r.value == ps[FindIndex(ps, id).value]
  {
    match FindIndex(ps, id)
    case None => None
    case Some(k) => Some(ps[k])
  }

  /** The previews a drop builds before any network call: one per file, in
      drop order, under the given ids and object URLs, none stored yet. */
  function Fresh(files: seq<FileInfo>, ids: seq<FileId>, urls: seq<string>): (r: seq<Preview>)
    requires |ids| == |files| && |urls| == |files|
    ensures |r| == |files|
    ensures forall i :: 0 <= i < |files| ==> r[i] == Preview(ids[i], files[i], urls[i], None)
  {
    if files == [] then []
    else [Preview(ids[0], files[0], urls[0], None)] + Fresh(files[1..], ids[1..], urls[1..])
  }

  /** The object URLs of a list of previews, in list order. */
  function Urls(ps: seq<Preview>): (r: seq<string>)
    ensures |r| == |ps|
    ensures forall i :: 0 <= i < |ps| ==> r[i] == ps[i].url
  {
    if ps == [] then [] else [ps[0].url] + Urls(ps[1..])
  }
}

=== FILE: text.dfy ===
/** The string operations the source borrows from JavaScript — `trim`,
    `toLowerCase`, `toUpperCase`, `startsWith`, `endsWith`, `includes` and
    `split("/")[1]` — restricted to ASCII. */
module Text {
  import opened Common

  /** The ASCII characters `String.prototype.trim` strips: tab, line feed,
      vertical tab, form feed, carriage return and space. */
  predicate IsSpace(c: char) {
    c == ' ' || c == '\t' || c == '\n' || c == '\r' || c as int == 11 || c as int == 12
  }

  /** True when the string has nothing but whitespace, i.e. `!s.trim()`. */
  predicate Blank(s: string) {
    forall i :: 0 <= i < |s| ==> IsSpace(s[i])
  }

  /** Drops leading whitespace. */
  function TrimStart(s: string): (r: string)
    ensures |r| <= |s| && r == s[|s| - |r|..]
    ensures forall i :: 0 <= i < |s| - |r| ==> IsSpace(s[i])
    ensures r == [] || !IsSpace(r[0])
    decreases |s|
  {
    if |s| > 0 && IsSpace(s[0]) then TrimStart(s[1..]) else s
  }

  /** Drops trailing whitespace. */
  function TrimEnd(s: string): (r: string)
    ensures |r| <= |s| && r == s[..|r|]
    ensures forall i :: |r| <= i < |s| ==> IsSpace(s[i])
    ensures r == [] || !IsSpace(r[|r| - 1])
    decreases |s|
  {
    if |s| > 0 && IsSpace(s[|s| - 1]) then TrimEnd(s[..|s| - 1]) else s
  }

  /** `r` sits in `s` at offset `a` with nothing but whitespace around it. */
  predicate SliceAmidSpace(s: string, r: string, a: nat) {
    a + |r| <= |s| && r == s[a..a + |r|]
    && (forall i :: 0 <= i < a ==> IsSpace(s[i]))
    && (forall i :: a + |r| <= i < |s| ==> IsSpace(s[i]))
  }

  /** `r` is `s` with some whitespace removed from its two ends only. */
  ghost predicate StrippedFrom(s: string, r: string) {
    exists a: nat :: SliceAmidSpace(s, r, a)
  }

  /** JavaScript's `s.trim()`: a slice of `s` whose ends are not whitespace,
      with only whitespace outside it. */
  function Trim(s: string): (r: string)
    ensures |r| <= |s|
    ensures r == [] || (!IsSpace(r[0]) && !IsSpace(r[|r| - 1]))
    ensures StrippedFrom(s, r)
  {
    TrimBothEnds(s);
    TrimStart(TrimEnd(s))
  }

  lemma TrimBothEnds(s: string)
    ensures var e := TrimEnd(s); SliceAmidSpace(s, TrimStart(e), |e| - |TrimStart(e)|)
  {
    var e := TrimEnd(s);
    var t := TrimStart(e);
    var a := |e| - |t|;
    assert t == e[a..] == s[..|e|][a..];
    assert s[..|e|][a..] == s[a..|e|];
    forall i | 0 <= i < a
      ensures IsSpace(s[i])
    {
      assert s[i] == e[i];
    }
  }

  /** The trimmed string is empty exactly when the input is all whitespace. */
  lemma TrimEmptyIffBlank(s: string)
    ensures Trim(s) == [] <==> Blank(s)
  {
    var e := TrimEnd(s);
    if Trim(s) == [] {
      forall i | 0 <= i < |s|
        ensures IsSpace(s[i])
      {
        if i < |e| {
          assert e[i] == s[i];
        }
      }
    }
  }

  /** Trimming twice trims nothing more. */
  lemma TrimIdempotent(s: string)
    ensures Trim(Trim(s)) == Trim(s)
  {
    var t := Trim(s);
    assert TrimEnd(t) == t;
    assert TrimStart(t) == t;
  }

  function LowerChar(c: char): char {
    if 'A' <= c <= 'Z' then (c as int + 32) as char else c
  }

  function UpperChar(c: char): char {
    if 'a' <= c <= 'z' then (c as int - 32) as char else c
  }

  /** JavaScript's `s.toLowerCase()` on ASCII. */
  function ToLower(s: string): (r: string)
    ensures |r| == |s|
    ensures forall i :: 0 <= i < |s| ==> r[i] == LowerChar(s[i])
  {
    seq(|s|, i requires 0 <= i < |s| => LowerChar(s[i]))
  }

  /** JavaScript's `s.toUpperCase()` on ASCII. */
  function ToUpper(s: string): (r: string)
    ensures |r| == |s|
    ensures forall i :: 0 <= i < |s| ==> r[i] == UpperChar(s[i])
  {
    seq(|s|, i requires 0 <= i < |s| => UpperChar(s[i]))
  }

  /** No character of an upper-cased string is a lower-case letter. */
  lemma ToUpperHasNoLower(s: string, i: int)
    requires 0 <= i < |s|
    ensures !('a' <= ToUpper(s)[i] <= 'z')
  {
  }

  /** Lower-casing never turns a whitespace character into a non-whitespace
      one or back, so it commutes with trimming. */
  lemma {:induction false} TrimStartLower(s: string)
    ensures TrimStart(ToLower(s)) == ToLower(TrimStart(s))
    decreases |s|
  {
    if |s| > 0 {
      LowerKeepsSpace(s[0]);
      if IsSpace(s[0]) {
        assert ToLower(s)[1..] == ToLower(s[1..]);
        TrimStartLower(s[1..]);
      }
    }
  }

  lemma {:induction false} TrimEndLower(s: string)
    ensures TrimEnd(ToLower(s)) == ToLower(TrimEnd(s))
    decreases |s|
  {
    if |s| > 0 {
      LowerKeepsSpace(s[|s| - 1]);
      if IsSpace(s[|s| - 1]) {
        assert ToLower(s)[..|s| - 1] == ToLower(s[..|s| - 1]);
        TrimEndLower(s[..|s| - 1]);
      }
    }
  }

  lemma LowerKeepsSpace(c: char)
    ensures IsSpace(LowerChar(c)) <==> IsSpace(c)
  {
  }

  lemma TrimLowerCommute(s: string)
    ensures Trim(ToLower(s)) == ToLower(Trim(s))
  {
    TrimEndLower(s);
    TrimStartLower(TrimEnd(s));
  }

  lemma ToLowerIdempotent(s: string)
    ensures ToLower(ToLower(s)) == ToLower(s)
  {
  }

  /** The name the channel backend stores: lower-cased, then trimmed. */
  function Normalize(s: string): (r: string)
    ensures |r| <= |s|
    ensures r == [] <==> Blank(s)
    ensures ToLower(r) == r
    ensures r == ToLower(Trim(s))
  {
    TrimEmptyIffBlank(ToLower(s));
    TrimLowerCommute(s);
    ToLowerIdempotent(Trim(s));
    Trim(ToLower(s))
  }

  /** Normalizing an already normalized name changes nothing. */
  lemma NormalizeIdempotent(s: string)
    ensures Normalize(Normalize(s)) == Normalize(s)
  {
    var t := Trim(ToLower(s));
    TrimLowerCommute(s);
    ToLowerIdempotent(Trim(s));
    assert ToLower(t) == t;
    TrimIdempotent(ToLower(s));
  }

  predicate StartsWith(s: string, prefix: string) {
    |prefix| <= |s| && s[..|prefix|] == prefix
  }

  predicate EndsWith(s: string, suffix: string) {
    |suffix| <= |s| && s[|s| - |suffix|..] == suffix
  }

  /** JavaScript's `s.includes(sub)`. */
  predicate Contains(s: string, sub: string)
    decreases |s|
  {
    StartsWith(s, sub) || (|s| > 0 && Contains(s[1..], sub))
  }

  /** An occurrence at any offset is found. */
  lemma {:induction false} ContainsAt(s: string, sub: string, k: nat)
    requires k + |sub| <= |s| && s[k..k + |sub|] == sub
    ensures Contains(s, sub)
    decreases k
  {
    if k > 0 {
      assert s[1..][k - 1..k - 1 + |sub|] == sub;
      ContainsAt(s[1..], sub, k - 1);
    }
  }

  /** A string lacking one of the pattern's characters cannot contain it. */
  lemma {:induction false} MissingCharNotContained(s: string, sub: string, c: char)
    requires c in sub && c !in s
    ensures !Contains(s, sub)
    decreases |s|
  {
    if |s| > 0 {
      MissingCharNotContained(s[1..], sub, c);
    }
  }

  /** Index of the first `c` in `s`, if any. */
  function IndexOf(s: string, c: char): (r: Option<nat>)
    ensures r.Some? ==> r.value < |s| && s[r.value] == c
    ensures r.Some? ==> forall i :: 0 <= i < r.value ==> s[i] != c
    ensures r.None? ==> forall i :: 0 <= i < |s| ==> s[i] != c
    decreases |s|
  {
    if |s| == 0 then None
    else if s[0] == c then Some(0)
    else match IndexOf(s[1..], c)
      case None => None
      case Some(k) => Some(k + 1)
  }

  /** The text before the first slash, or all of `s` when it has none. */
  function BeforeSlash(s: string): (r: string)
    ensures '/' !in r
    ensures r == s || (|r| < |s| && s[|r|] == '/')
    ensures r <= s
  {
    match IndexOf(s, '/')
    case None => s
    case Some(k) =>
      assert forall c :: c in s[..k] ==> c != '/';
      s[..k]
  }

  /** `s.split("/")[1]`: the text between the first and the second slash (or
      the end), and `None` (`undefined`) when there is no slash at all. */
  function SecondSegment(s: string): (r: Option<string>)
    ensures r.None? <==> '/' !in s
    ensures r.Some? ==> '/' !in r.value
  {
    match IndexOf(s, '/')
    case None => None
    case Some(k) => Some(BeforeSlash(s[k + 1..]))
  }

  /** After a prefix whose only slash is its last character, the second
      segment is whatever follows up to the next slash. */
  lemma SecondSegmentAfter(p: string, rest: string)
    requires |p| > 0 && p[|p| - 1] == '/' && '/' !in p[..|p| - 1]
    ensures SecondSegment(p + rest) == Some(BeforeSlash(rest))
  {
    var s := p + rest;
    var k := |p| - 1;
    assert s[k] == '/';
    assert forall i :: 0 <= i < k ==> s[i] == p[..|p| - 1][i];
    assert IndexOf(s, '/') == Some(k);
    assert s[k + 1..] == rest;
  }
}

=== FILE: web_composer.dfy ===
/** The message composer of the web app (apps/web): draft text, an attachment
    strip whose entries get server ids when dropped and storage ids when their
    upload finishes, the submit guard, and the optimistic message shown
    before the server confirms. Network calls appear as their results. */
module WebComposer {
  import opened Common
  import opened Text
  import opened Previews
  import EditMode

  type ChannelId = string
  type MessageId = string

  datatype User = User(id: string, name: string)

  /** The composer's state: its props, its `useState`s and the edit session. */
  datatype Composer = Composer(
    channelId: ChannelId,
    parentMessageId: Option<MessageId>,
    text: string,
    previews: seq<Preview>,
    tempMessageId: string,
    session: EditMode.Session)

  /** Submit does nothing, and the submit button is disabled, when the text
      is blank and there are no previews. Upload progress is not consulted. */
  predicate NothingToSend(text: string, previews: seq<Preview>) {
    Trim(text) == [] && |previews| == 0
  }

  /** A draft is sent exactly when it has non-blank text or an attachment,
      whether or not the attachments have finished uploading. */
  lemma SendableIff(text: string, previews: seq<Preview>)
    ensures !NothingToSend(text, previews) <==> !Blank(text) || |previews| > 0
  {
    TrimEmptyIffBlank(text);
  }

  /** The arguments of the `messages.send` mutation. */
  datatype SendArgs = SendArgs(channelId: ChannelId, tempMessageId: string, content: string, parentMessageId: Option<MessageId>)

  /** A `crypto.randomUUID()` together with the `Date.now()` read beside it. */
  datatype Stamp = Stamp(id: string, time: int)

  /** One attachment of the optimistic message. `metadata` is always null and
      is not represented. */
  datatype OptimisticFile = OptimisticFile(
    id: FileId, name: string, previewId: FileId, previewContentType: string, previewUrl: string,
    creationTime: int, messageId: MessageId, url: Option<string>, storageId: Option<StorageId>)

  datatype Reaction = Reaction(emoji: string, userId: string)

  /** The item `withOptimisticUpdate` inserts into the paginated message list
      (`threadInfo` is always null and is not represented). */
  datatype OptimisticMessage = OptimisticMessage(
    id: MessageId, authorId: string, content: string, author: User, channelId: ChannelId,
    parentMessageId: Option<MessageId>, creationTime: int, status: string,
    reactions: seq<Reaction>, files: seq<OptimisticFile>)

  /** One optimistic file entry per preview, in preview order. */
  function OptimisticFiles(ps: seq<Preview>, messageId: MessageId, stamps: seq<Stamp>): (r: seq<OptimisticFile>)
    requires |stamps| == |ps|
    ensures |r| == |ps|
    ensures forall i :: 0 <= i < |ps| ==>
      && r[i].previewId == ps[i].id && r[i].name == ps[i].file.name
      && r[i].previewContentType == ps[i].file.contentType && r[i].previewUrl == ps[i].url
      && r[i].id == stamps[i].id && r[i].creationTime == stamps[i].time && r[i].messageId == messageId
      && r[i].url == None && r[i].storageId == None
  {
    if ps == [] then []
    else
      [OptimisticFile(stamps[0].id, ps[0].file.name, ps[0].id, ps[0].file.contentType, ps[0].url,
                      stamps[0].time, messageId, None, None)]
      + OptimisticFiles(ps[1..], messageId, stamps[1..])
  }

  /** The optimistic update: nothing when the current user is not loaded yet,
      otherwise a "created" message with no reactions whose files mirror the
      previews at submit time. */
  function OptimisticItem(user: Option<User>, channelId: ChannelId, args: SendArgs, ps: seq<Preview>,
                          stamp: Stamp, fileStamps: seq<Stamp>): (r: Option<OptimisticMessage>)
    requires |fileStamps| == |ps|
    ensures r.Some? <==> user.Some?
    ensures r.Some? ==>
      && r.value.status == "created" && r.value.reactions == []
      && r.value.content == args.content && r.value.author == user.value
      && r.value.authorId == user.value.id && r.value.channelId == channelId
      && r.value.parentMessageId == args.parentMessageId
      && r.value.id == stamp.id && r.value.creationTime == stamp.time
      && r.value.files == OptimisticFiles(ps, stamp.id, fileStamps)
      && |r.value.files| == |ps|
      && forall i :: 0 <= i < |ps| ==>
           r.value.files[i].previewId == ps[i].id && r.value.files[i].url == None
           && r.value.files[i].storageId == None && r.value.files[i].messageId == r.value.id
  {
    match user
    case None => None
    case Some(u) =>
      Some(OptimisticMessage(stamp.id, u.id, args.content, u, channelId, args.parentMessageId,
                             stamp.time, "created", [], OptimisticFiles(ps, stamp.id, fileStamps)))
  }

  datatype SubmitResult =
    | Ignored
    | Sent(args: SendArgs, optimistic: Option<OptimisticMessage>, after: Composer, errorShown: bool)

  /** `handleSendMessage`: unless there is nothing to send, clear text and
      previews at once, send the trimmed text under the current temporary
      message id, and renew that id only once the send has resolved. A failed
      send shows an error and does not restore the draft. */
  function Submit(c: Composer, user: Option<User>, sendSucceeds: bool, nextTempId: string,
                  stamp: Stamp, fileStamps: seq<Stamp>): (r: SubmitResult)
    requires |fileStamps| == |c.previews|
    ensures r.Ignored? <==> NothingToSend(c.text, c.previews)
    ensures r.Sent? ==>
      && r.args == SendArgs(c.channelId, c.tempMessageId, Trim(c.text), c.parentMessageId)
      && r.after.text == [] && r.after.previews == []
      && r.after.channelId == c.channelId && r.after.session == c.session
      && r.after.parentMessageId == c.parentMessageId
      && r.after.tempMessageId == (if sendSucceeds then nextTempId else c.tempMessageId)
      && r.errorShown == !sendSucceeds
      && r.optimistic == OptimisticItem(user, c.channelId, r.args, c.previews, stamp, fileStamps)
  {
    if NothingToSend(c.text, c.previews) then Ignored
    else
      var args := SendArgs(c.channelId, c.tempMessageId, Trim(c.text), c.parentMessageId);
      var cleared := c.(text := [], previews := []);
      Sent(args, OptimisticItem(user, c.channelId, args, c.previews, stamp, fileStamps),
           if sendSucceeds then cleared.(tempMessageId := nextTempId) else cleared,
           !sendSucceeds)
  }

  /** Submission does not wait for uploads: a draft whose only attachment has
      no storage id yet is still sent, with that attachment in the optimistic
      item. */
  lemma SubmitIgnoresUploadState(c: Composer, p: Preview, user: User, stamp: Stamp, fs: Stamp)
    requires c.previews == [p] && p.storageId == None
    ensures var r := Submit(c, Some(user), true, "next", stamp, [fs]);
      r.Sent? && r.optimistic.Some? && |r.optimistic.value.files| == 1
  {
  }

  /** The channel-change effect only leaves edit mode: the draft text, the
      previews and the temporary message id survive the switch. */
  function OnChannelChange(c: Composer, channelId: ChannelId): (r: Composer)
    ensures r.text == c.text && r.previews == c.previews && r.tempMessageId == c.tempMessageId
    ensures r.channelId == channelId && r.session == EditMode.OnChannel(c.session, channelId)
    ensures c.session.previousChannel != Some(channelId) ==> r.session.editMessageId == None
  {
    c.(channelId := channelId, session := EditMode.OnChannel(c.session, channelId))
  }

  // ---------------------------------------------------------------------------
  // Dropping files

  /** The record `createFilePreviews` returns for each registered preview. */
  datatype CreatedFile = CreatedFile(id: FileId, previewId: FileId)

  /** The settled outcome of one upload (`Promise.allSettled`). */
  datatype UploadResult = Fulfilled(storageId: StorageId) | Rejected

  /** The server id of the first created record that names the preview
      `tempId`, or nothing when no record names it. */
  function ServerId(created: seq<CreatedFile>, tempId: FileId): (r: Option<FileId>)
    ensures r.None? <==> forall k :: 0 <= k < |created| ==> created[k].previewId != tempId
    ensures r.Some? ==> exists k :: (0 <= k < |created| && created[k].previewId == tempId && created[k].id == r.value
                                     && forall j :: 0 <= j < k ==> created[j].previewId != tempId)
  {
    if created == [] then None
    else if created[0].previewId == tempId then Some(created[0].id)
    else
      var r := ServerId(created[1..], tempId);
      assert forall k :: 1 <= k < |created| ==> created[k] == created[1..][k - 1];
      r
  }

  /** Replace every temporary id by the server id registered for it. `None`
      when some preview has no record: reading `.id` of the missing record
      then throws a TypeError and the drop stops before anything is shown. */
  function Remap(ps: seq<Preview>, created: seq<CreatedFile>): (r: Option<seq<Preview>>)
    ensures r.Some? <==> forall i :: 0 <= i < |ps| ==> ServerId(created, ps[i].id).Some?
    ensures r.Some? ==> |r.value| == |ps|
    ensures r.Some? ==> forall i :: 0 <= i < |ps| ==> r.value[i] == ps[i].(id := ServerId(created, ps[i].id).value)
  {
    if ps == [] then Some([])
    else
      match ServerId(created, ps[0].id)
      case None => None
      case Some(sid) =>
        match Remap(ps[1..], created)
        case None =>
          assert !ServerId(created, ps[1..][0].id).Some? || exists i :: 0 <= i < |ps[1..]| && ServerId(created, ps[1..][i].id).None?;
          None
        case Some(rest) => Some([ps[0].(id := sid)] + rest)
  }

  /** The storage id the last fulfilled upload for `id` returned, if any. */
  function LastStored(batch: seq<Preview>, results: seq<UploadResult>, id: FileId): Option<StorageId>
    requires |results| == |batch|
  {
    if batch == [] then None
    else match LastStored(batch[1..], results[1..], id)
      case Some(s) => Some(s)
      case None => if batch[0].id == id && results[0].Fulfilled? then Some(results[0].storageId) else None
  }

  /** The loop over the settled results: every fulfilled upload marks its
      preview stored; rejected ones are skipped. */
  function ApplyUploads(ps: seq<Preview>, batch: seq<Preview>, results: seq<UploadResult>): (r: seq<Preview>)
    requires |results| == |batch|
    ensures |r| == |ps|
    ensures forall i :: 0 <= i < |ps| ==> r[i].id == ps[i].id && r[i].file == ps[i].file && r[i].url == ps[i].url
    ensures forall i :: 0 <= i < |ps| ==>
      r[i] == match LastStored(batch, results, ps[i].id)
              case None => ps[i]
              case Some(s) => ps[i].(storageId := Some(s))
    decreases |batch|
  {
    if batch == [] then ps
    else
      var next := if results[0].Fulfilled? then MarkStored(ps, batch[0].id, results[0].storageId) else ps;
      ApplyUploads(next, batch[1..], results[1..])
  }

  /** The `updateFile` calls the loop makes over these results, one per
      fulfilled upload, in batch order. */
  function StorageUpdates(batch: seq<Preview>, results: seq<UploadResult>): (r: seq<(FileId, StorageId)>)
    requires |results| == |batch|
    ensures |r| <= |batch|
    ensures r == [] <==> forall i :: 0 <= i < |batch| ==> results[i].Rejected?
    ensures forall u :: u in r ==> exists i :: 0 <= i < |batch| && batch[i].id == u.0 && results[i] == Fulfilled(u.1)
  {
    if batch == [] then []
    else
      var rest := StorageUpdates(batch[1..], results[1..]);
      assert forall i :: 1 <= i < |batch| ==> batch[i] == batch[1..][i - 1] && results[i] == results[1..][i - 1];
      if results[0].Fulfilled? then [(batch[0].id, results[0].storageId)] + rest else rest
  }

  /** The calls for two stretches of results are the first stretch's calls
      followed by the second's: the loop keeps batch order. */
  lemma {:induction false} StorageUpdatesAppend(b1: seq<Preview>, r1: seq<UploadResult>, b2: seq<Preview>, r2: seq<UploadResult>)
    requires |r1| == |b1| && |r2| == |b2|
    ensures StorageUpdates(b1 + b2, r1 + r2) == StorageUpdates(b1, r1) + StorageUpdates(b2, r2)
    decreases |b1|
  {
    if b1 == [] {
      assert b1 + b2 == b2 && r1 + r2 == r2;
    } else {
      assert (b1 + b2)[0] == b1[0] && (b1 + b2)[1..] == b1[1..] + b2;
      assert (r1 + r2)[0] == r1[0] && (r1 + r2)[1..] == r1[1..] + r2;
      StorageUpdatesAppend(b1[1..], r1[1..], b2, r2);
    }
  }

  /** One call per fulfilled upload: as many calls as results that were not
      rejected. */
  lemma {:induction false} StorageUpdatesCount(batch: seq<Preview>, results: seq<UploadResult>)
    requires |results| == |batch|
    ensures |StorageUpdates(batch, results)| == |results| - multiset(results)[Rejected]
    decreases |batch|
  {
    if batch != [] {
      assert results == [results[0]] + results[1..];
      StorageUpdatesCount(batch[1..], results[1..]);
    }
  }

  /** One result makes one call exactly when its upload was fulfilled. */
  lemma StorageUpdatesOne(p: Preview, u: UploadResult)
    ensures StorageUpdates([p], [u]) == if u.Fulfilled? then [(p.id, u.storageId)] else []
  {
    assert [p][1..] == [] && [u][1..] == [];
  }

  /** How far the loop gets: the number of results it finishes before the
      first fulfilled upload whose `updateFile` call rejects, which aborts
      it. `updateOk[i]` is the outcome of the call for result `i`, read only
      when that upload was fulfilled. */
  function UpdatesCompleted(results: seq<UploadResult>, updateOk: seq<bool>): (k: nat)
    requires |updateOk| == |results|
    ensures k <= |results|
    ensures forall i :: 0 <= i < k ==> results[i].Rejected? || updateOk[i]
    ensures k < |results| ==> results[k].Fulfilled? && !updateOk[k]
  {
    if results == [] then 0
    else if results[0].Fulfilled? && !updateOk[0] then 0
    else
      var k := UpdatesCompleted(results[1..], updateOk[1..]);
      assert forall i :: 1 <= i < |results| ==> results[i] == results[1..][i - 1] && updateOk[i] == updateOk[1..][i - 1];
      1 + k
  }

  /** Whether some upload was rejected. */
  predicate AnyRejected(results: seq<UploadResult>) {
    exists i :: 0 <= i < |results| && results[i].Rejected?
  }

  /** What a drop leaves: the previews shown, the `updateFile` calls made
      (the failing one included), whether the "Some files failed to upload"
      toast was raised, and whether a failed `updateFile` aborted the loop. */
  datatype DropOutcome = DropOutcome(previews: seq<Preview>, updates: seq<(FileId, StorageId)>, warned: bool,
                                     aborted: bool)

  /** The previews a drop shows: the dropped files under the server ids
      registered for their temporary ids, or `None` when one is missing. */
  function Register(files: seq<FileInfo>, tempIds: seq<FileId>, urls: seq<string>,
                    created: seq<CreatedFile>): (r: Option<seq<Preview>>)
    requires |tempIds| == |files| && |urls| == |files|
    ensures r.None? <==> exists i :: 0 <= i < |files| && ServerId(created, tempIds[i]).None?
    ensures r.Some? ==> |r.value| == |files|
    ensures r.Some? ==> forall i :: 0 <= i < |files| ==>
      r.value[i] == Preview(ServerId(created, tempIds[i]).value, files[i], urls[i], None)
  {
    var temp := Fresh(files, tempIds, urls);
    assert forall i :: 0 <= i < |files| ==> temp[i].id == tempIds[i];
    Remap(temp, created)
  }

  /** `onDrop`: register the files, append them under their server ids,
      then settle the uploads. */
  function Drop(current: seq<Preview>, files: seq<FileInfo>, tempIds: seq<FileId>, urls: seq<string>,
                created: seq<CreatedFile>, results: seq<UploadResult>, updateOk: seq<bool>): (r: Option<DropOutcome>)
    requires |tempIds| == |files| && |urls| == |files| && |results| == |files| && |updateOk| == |files|
    ensures r.None? <==> exists i :: 0 <= i < |files| && ServerId(created, tempIds[i]).None?
    ensures r.Some? ==> |r.value.previews| == |current| + |files|
    ensures r.Some? ==> (r.value.warned <==> AnyRejected(results))
    ensures r.Some? ==> (r.value.aborted <==> exists i :: 0 <= i < |files| && results[i].Fulfilled? && !updateOk[i])
    ensures r.Some? ==> r.value.updates == CallsMade(Register(files, tempIds, urls, created).value, results, updateOk)
    ensures r.Some? ==> forall i :: 0 <= i < |files| ==>
      && r.value.previews[|current| + i].id == ServerId(created, tempIds[i]).value
      && r.value.previews[|current| + i].file == files[i]
      && r.value.previews[|current| + i].url == urls[i]
  {
    match Register(files, tempIds, urls, created)
    case None => None
    case Some(batch) => Some(Settle(current, batch, results, updateOk))
  }

  /** What follows the registration of `batch`: the previews are shown after
      `current`, a warning is raised when any upload was rejected, then the
      results are walked in order: each fulfilled upload calls `updateFile`
      and, once that succeeds, marks its preview stored. The first failing
      `updateFile` ends the walk. */
  function Settle(current: seq<Preview>, batch: seq<Preview>, results: seq<UploadResult>, updateOk: seq<bool>): (r: DropOutcome)
    requires |results| == |batch| && |updateOk| == |batch|
    ensures |r.previews| == |current| + |batch|
    ensures r.warned <==> AnyRejected(results)
    ensures r.aborted <==> exists i :: 0 <= i < |batch| && results[i].Fulfilled? && !updateOk[i]
    ensures r.updates == CallsMade(batch, results, updateOk)
    ensures forall i :: 0 <= i < |batch| ==>
      && r.previews[|current| + i].id == batch[i].id
      && r.previews[|current| + i].file == batch[i].file
      && r.previews[|current| + i].url == batch[i].url
  {
    var k := UpdatesCompleted(results, updateOk);
    AppendedKeepFields(current, batch[..k], results[..k], batch);
    DropOutcome(ApplyUploads(current + batch, batch[..k], results[..k]),
                CallsMade(batch, results, updateOk), AnyRejected(results), k < |batch|)
  }

  /** The `updateFile` calls of the walk: those for the results up to and
      including the first failing one, or for all of them when none fails. */
  function CallsMade(batch: seq<Preview>, results: seq<UploadResult>, updateOk: seq<bool>): (r: seq<(FileId, StorageId)>)
    requires |results| == |batch| && |updateOk| == |batch|
    ensures var k := UpdatesCompleted(results, updateOk);
      && (k == |batch| ==> r == StorageUpdates(batch, results))
      && (k < |batch| ==> r == StorageUpdates(batch[..k], results[..k]) + [(batch[k].id, results[k].storageId)])
  {
    var k := UpdatesCompleted(results, updateOk);
    if k == |batch| then
      assert batch[..k] == batch && results[..k] == results;
      StorageUpdates(batch[..k], results[..k])
    else
      assert batch[..k + 1] == batch[..k] + [batch[k]] && results[..k + 1] == results[..k] + [results[k]];
      StorageUpdatesAppend(batch[..k], results[..k], [batch[k]], [results[k]]);
      StorageUpdatesOne(batch[k], results[k]);
      StorageUpdates(batch[..k + 1], results[..k + 1])
  }

  /** The uploads loop leaves the appended previews' ids, files and urls as
      they were registered. */
  lemma AppendedKeepFields(current: seq<Preview>, done: seq<Preview>, results: seq<UploadResult>, batch: seq<Preview>)
    requires |results| == |done|
    ensures var after := ApplyUploads(current + batch, done, results);
      && |after| == |current| + |batch|
      && forall i :: 0 <= i < |batch| ==>
           after[|current| + i].id == batch[i].id && after[|current| + i].file == batch[i].file && after[|current| + i].url == batch[i].url
  {
    var all := current + batch;
    assert forall i :: 0 <= i < |batch| ==> all[|current| + i] == batch[i];
  }

  /** With distinct ids, none shared with `current`, settling leaves the
      earlier previews as they were and marks as stored exactly the files
      whose upload was fulfilled and which come before the first failing
      `updateFile`. */
  lemma SettleStores(current: seq<Preview>, batch: seq<Preview>, results: seq<UploadResult>, updateOk: seq<bool>)
    requires |results| == |batch| && |updateOk| == |batch|
    requires forall a, b :: 0 <= a < b < |batch| ==> batch[a].id != batch[b].id
    requires forall i, j :: 0 <= i < |batch| && 0 <= j < |current| ==> batch[i].id != current[j].id
    ensures var r := Settle(current, batch, results, updateOk);
      var k := UpdatesCompleted(results, updateOk);
      && r.previews[..|current|] == current
      && forall i :: 0 <= i < |batch| ==>
           r.previews[|current| + i] ==
             batch[i].(storageId := if i < k && results[i].Fulfilled? then Some(results[i].storageId) else batch[i].storageId)
  {
    var r := Settle(current, batch, results, updateOk);
    SettleKeepsCurrent(current, batch, results, updateOk);
    forall i | 0 <= i < |batch|
      ensures r.previews[|current| + i] ==
        batch[i].(storageId := if i < UpdatesCompleted(results, updateOk) && results[i].Fulfilled?
                               then Some(results[i].storageId) else batch[i].storageId)
    {
      SettleStoresAt(current, batch, results, updateOk, i);
    }
  }

  lemma SettleKeepsCurrent(current: seq<Preview>, batch: seq<Preview>, results: seq<UploadResult>, updateOk: seq<bool>)
    requires |results| == |batch| && |updateOk| == |batch|
    requires forall i, j :: 0 <= i < |batch| && 0 <= j < |current| ==> batch[i].id != current[j].id
    ensures Settle(current, batch, results, updateOk).previews[..|current|] == current
  {
    var k := UpdatesCompleted(results, updateOk);
    var all := current + batch;
    var after := ApplyUploads(all, batch[..k], results[..k]);
    forall j | 0 <= j < |current|
      ensures after[j] == current[j]
    {
      assert all[j] == current[j];
      LastStoredAbsent(batch[..k], results[..k], current[j].id);
    }
    assert after[..|current|] == current;
  }

  lemma SettleStoresAt(current: seq<Preview>, batch: seq<Preview>, results: seq<UploadResult>, updateOk: seq<bool>, i: nat)
    requires |results| == |batch| && |updateOk| == |batch| && i < |batch|
    requires forall a, b :: 0 <= a < b < |batch| ==> batch[a].id != batch[b].id
    ensures var k := UpdatesCompleted(results, updateOk);
      Settle(current, batch, results, updateOk).previews[|current| + i] ==
        batch[i].(storageId := if i < k && results[i].Fulfilled? then Some(results[i].storageId) else batch[i].storageId)
  {
    var k := UpdatesCompleted(results, updateOk);
    var done, doneResults := batch[..k], results[..k];
    assert (current + batch)[|current| + i] == batch[i];
    if i < k {
      assert forall a, b :: 0 <= a < b < k ==> done[a].id != done[b].id;
      LastStoredDistinct(done, doneResults, i);
    } else {
      assert forall j :: 0 <= j < k ==> done[j].id != batch[i].id;
      LastStoredAbsent(done, doneResults, batch[i].id);
    }
  }

  /** When the server hands out fresh, distinct ids, a drop leaves the
      earlier previews as they were and marks as stored exactly the dropped
      files whose upload was fulfilled and which come before the first
      failing `updateFile`; when every update succeeds, that is every
      fulfilled upload. */
  lemma DropStoresFulfilled(current: seq<Preview>, files: seq<FileInfo>, tempIds: seq<FileId>, urls: seq<string>,
                            created: seq<CreatedFile>, results: seq<UploadResult>, updateOk: seq<bool>)
    requires |tempIds| == |files| && |urls| == |files| && |results| == |files| && |updateOk| == |files|
    requires forall i :: 0 <= i < |files| ==> ServerId(created, tempIds[i]).Some?
    requires forall i, j :: 0 <= i < j < |files| ==> ServerId(created, tempIds[i]) != ServerId(created, tempIds[j])
    requires forall i, k :: 0 <= i < |files| && 0 <= k < |current| ==> ServerId(created, tempIds[i]) != Some(current[k].id)
    ensures var r := Drop(current, files, tempIds, urls, created, results, updateOk);
      var k := UpdatesCompleted(results, updateOk);
      && r.Some?
      && r.value.previews[..|current|] == current
      && forall i :: 0 <= i < |files| ==>
           r.value.previews[|current| + i].storageId ==
             (if i < k && results[i].Fulfilled? then Some(results[i].storageId) else None)
  {
    var batch := Register(files, tempIds, urls, created).value;
    RegisteredIds(current, files, tempIds, urls, created);
    SettleStores(current, batch, results, updateOk);
    assert Drop(current, files, tempIds, urls, created, results, updateOk) == Some(Settle(current, batch, results, updateOk));
  }

  /** Distinct, fresh server ids give a batch of distinct, fresh, unstored
      previews. */
  lemma RegisteredIds(current: seq<Preview>, files: seq<FileInfo>, tempIds: seq<FileId>, urls: seq<string>,
                      created: seq<CreatedFile>)
    requires |tempIds| == |files| && |urls| == |files|
    requires forall i :: 0 <= i < |files| ==> ServerId(created, tempIds[i]).Some?
    requires forall i, j :: 0 <= i < j < |files| ==> ServerId(created, tempIds[i]) != ServerId(created, tempIds[j])
    requires forall i, k :: 0 <= i < |files| && 0 <= k < |current| ==> ServerId(created, tempIds[i]) != Some(current[k].id)
    ensures var batch := Register(files, tempIds, urls, created).value;
      && |batch| == |files|
      && (forall a, b :: 0 <= a < b < |batch| ==> batch[a].id != batch[b].id)
      && (forall i, j :: 0 <= i < |batch| && 0 <= j < |current| ==> batch[i].id != current[j].id)
      && (forall i :: 0 <= i < |batch| ==> batch[i].storageId == None)
  {
  }

  lemma {:induction false} LastStoredAbsent(batch: seq<Preview>, results: seq<UploadResult>, id: FileId)
    requires |results| == |batch|
    requires forall i :: 0 <= i < |batch| ==> batch[i].id != id
    ensures LastStored(batch, results, id) == None
    decreases |batch|
  {
    if batch != [] {
      LastStoredAbsent(batch[1..], results[1..], id);
    }
  }

  lemma {:induction false} LastStoredDistinct(batch: seq<Preview>, results: seq<UploadResult>, i: nat)
    requires |results| == |batch| && i < |batch|
    requires forall a, b :: 0 <= a < b < |batch| ==> batch[a].id != batch[b].id
    ensures LastStored(batch, results, batch[i].id) ==
            (if results[i].Fulfilled? then Some(results[i].storageId) else None)
    decreases i
  {
    if i == 0 {
      LastStoredAbsent(batch[1..], results[1..], batch[0].id);
    } else {
      LastStoredDistinct(batch[1..], results[1..], i - 1);
    }
  }

  // ---------------------------------------------------------------------------
  // Removing a preview and unmounting

  /** What `handleRemoveFile(id)` does: the `files.remove` call it always
      makes, the filtered list, and the object URL it revokes. */
  datatype Removal = Removal(removeCall: FileId, previews: seq<Preview>, revoked: Option<string>)

  /** Remove every entry with that id, keep the rest in order, and revoke the
      URL of the first such entry only when one was present. */
  function RemoveFile(ps: seq<Preview>, id: FileId): (r: Removal)
    ensures r.removeCall == id
    ensures r.previews == Without(ps, id)
    ensures r.revoked.Some? <==> HasId(ps, id)
    ensures r.revoked.Some? ==> exists i :: 0 <= i < |ps| && ps[i].id == id && ps[i].url == r.revoked.value
    ensures HasId(ps, id) ==> r.revoked == Some(ps[FindIndex(ps, id).value].url)
  {
    var found := Find(ps, id);
    Removal(id, Without(ps, id), if found.Some? then Some(found.value.url) else None)
  }

  /** After a removal, the removed upload's late completion is a no-op. */
  lemma UploadAfterRemoveIsNoOp(ps: seq<Preview>, id: FileId, sid: StorageId)
    ensures MarkStored(RemoveFile(ps, id).previews, id, sid) == RemoveFile(ps, id).previews
  {
    MarkStoredAfterRemove(ps, id, sid);
  }

  /** The previews the unmount cleanup sees, as written: the effect is
      registered once with no dependencies, so its closure holds the
      mount-time list, which is always empty. */
  function RevokedOnUnmountAsWritten(current: seq<Preview>): (r: seq<string>)
    ensures |r| == 0
  {
    var mounted: seq<Preview> := [];
    Urls(mounted)
  }

  /** The evident intent: revoke the URL of every preview still shown. */
  function RevokedOnUnmount(current: seq<Preview>): (r: seq<string>)
    ensures |r| == |current|
    ensures forall i :: 0 <= i < |current| ==> current[i].url in r
  {
    Urls(current)
  }

  /** With one preview on screen, the cleanup as written releases nothing
      while the intended one releases that preview's URL. */
  lemma UnmountLeaksPreviewUrl(p: Preview)
    ensures p.url !in RevokedOnUnmountAsWritten([p])
    ensures p.url in RevokedOnUnmount([p])
  {
    assert [p][0] == p;
  }
}
